=== FILE: README.md ===
# CyndykTaskManager in Dafny

CyndykTaskManager is a Django site with two parts.

- **Task tracker.** Staff accounts create employees and give them paid tasks. An employee submits a task. The staff member who created it then confirms it, and the task's payment is added to the employee's balance. A kanban board shows the tasks grouped by status.
- **Game-release calendar.** It keeps `GameRelease` records with their platforms, languages and marketplaces. Two pieces of code fill it. A parser scrapes upcoming games from IGN and adds the ones whose titles are not stored yet. A management command looks up each game on DekuDeals and rewrites its languages from what the page says.

This project models those parts and proves properties of them:

- `wrappers.dfy`: `Option`.
- `text.dfy`: the Python string operations the code relies on (`strip`, `split`, `join`, `lower`, `isalnum`, substring tests), with their round trips.
- `tasks_models.dfy`: the `CustomUser` and `Task` records as values.
- `tasks_views.dfy`: the task views. Each view is a function from the stored state and the request to the response and the new state. The class `TaskStore` holds that state and updates it in place; each of its methods is proved equal to its function.
- `tasks_utils.dfy`: the kanban data. The grouping loops are methods, proved against the query functions `Filter`, `SortByDue` and `SumPayment`.
- `releases_models.dfy`: the `GameRelease` record and its read helpers.
- `releases_views.dfy`: the marketplace and publish toggles, as methods of the class `Catalogue` that holds the release table. Also the start page of the release list.
- `check_localizations.dfy`: the localization command:
  - the DekuDeals slug;
  - the language scan of a page;
  - the loop over the selected games, which updates an array of releases in place.
- `ign_parser.dfy`: the IGN parser after the browser has done its work:
  - the elements each selector finds are values;
  - the class `ReleaseParser` keeps the parser's counters and the release table it saves into.

Value conventions:

- Money is integer cents.
- Dates are day numbers; "today" and "now" are parameters.
- The network and the browser are parameters. A DekuDeals lookup is a function from a URL to the outcomes of the successive requests. A selector query is either `QueryFailed` or the elements it found.

## Model

| member | source | states |
|---|---|---|
| TaskModels.StatusName | tasks/models.py:14-18 | A status has a non-empty display name exactly when it is one of the three declared choices. |
| TaskModels.ChoiceName | tasks/models.py:14-18 | The lookup in a list of choices gives the name paired with the code, or `""` when no choice has that code. |
| TaskModels.UndeclaredStatusesHaveNoName | tasks/utils.py:18-22 | `proposed` and `in_progress` appear on the board but have the empty name. The three declared codes have their Russian names. |
| TaskModels.NewUser | tasks/models.py:4-8 | A new account has no manager, a zero balance, and is neither staff nor superuser. |
| TaskModels.NewTask | tasks/models.py:20-31 | A new task has the default status `created`, which is a declared choice, no submission date, and its creation time set to now. Every other field is taken from its arguments. |
| TaskViews.Subordinates | tasks/views.py:66 | The set is exactly the accounts whose manager is the requester. |
| TaskViews.NonStaff | tasks/models.py:22-23 | The set is exactly the accounts that `limit_choices_to={'is_staff': False}` admits as assignees. |
| TaskViews.Submit | tasks/views.py:72-81 | A task the requester is not assigned to answers 404. A POST by the assignee sets the status to `submitted` and the submission date to now, from any status. Nothing else changes, and a GET changes nothing. |
| TaskViews.Complete | tasks/views.py:85-102 | A non-staff requester is redirected and nothing changes. A task the requester did not create answers 404. A POST marks the task `completed` and adds exactly its payment to its assignee's balance. No other account or task changes. |
| TaskViews.CreateEmployee | tasks/views.py:32-48 | Only a staff requester who posts a valid form adds an account, exactly one: neither staff nor superuser, reporting to the requester, zero balance, with the form's username and password. Otherwise nothing changes. |
| TaskViews.CreateTask | tasks/views.py:52-68 | A GET offers exactly the requester's subordinates. A valid POST adds exactly one task: `NewTask` of the form's title, description, assignee, due date and payment, created by the requester at `now`. Every stored task is kept, and tasks and users stay consistent. |
| TaskViews.ChangeEmployeePassword | tasks/views.py:124-140 | An account that does not report to the staff requester answers 404. A POST with a non-empty password sets exactly that employee's password and redirects. Any other request changes nothing. |
| TaskViews.CompleteTwiceCreditsTwice | tasks/views.py:89-98 | Nothing checks the current status, so confirming a task twice credits its assignee twice its payment. |
| TaskViews.CreateTaskAcceptsForeignAssignee | tasks/views.py:56-66 | The subordinate-only choice list applies only on GET. A posted form may assign the task to any non-staff account, including one outside the requester's team. |
| TaskViews.SubmitIgnoresStatus | tasks/views.py:73-78 | A `completed` task goes back to `submitted` when its assignee posts. |
| TaskViews.SubmitKeepsWellFormed | tasks/views.py:72-81 | Submission keeps every stored record within the declared choices: `submitted` is a declared status. |
| TaskViews.CompleteKeepsWellFormed | tasks/views.py:85-102 | Completion keeps every stored record within the declared choices: `completed` is a declared status, and crediting a balance changes no staff flag. |
| TaskViews.CreateEmployeeKeepsWellFormed | tasks/views.py:32-48 | A new employee is a non-staff account under a staff manager, so every record stays within the declared choices. |
| TaskViews.CreateTaskKeepsWellFormed | tasks/views.py:52-68 | A new task starts in a declared status and is assigned to a non-staff account, as `limit_choices_to` and the status choices at tasks/models.py:14-27 require. |
| TaskViews.ChangeEmployeePasswordKeepsWellFormed | tasks/views.py:124-140 | A password change leaves every staff flag and manager as it was, so every record stays within the declared choices. |
| TaskViews.TaskStore.constructor | tasks/views.py:72-140 | The store starts with the given users and tasks. |
| TaskViews.TaskStore.SubmitTask | tasks/views.py:72-81 | The response and the new stored state are those of `Submit`. |
| TaskViews.TaskStore.CompleteTask | tasks/views.py:85-102 | The response and the new stored state are those of `Complete`. |
| TaskViews.TaskStore.CreateEmployeeView | tasks/views.py:32-48 | The response and the new stored state are those of `CreateEmployee`. |
| TaskViews.TaskStore.CreateTaskView | tasks/views.py:52-68 | The response and the new stored state are those of `CreateTask`. |
| TaskViews.TaskStore.ChangeEmployeePasswordView | tasks/views.py:124-140 | The response and the new stored state are those of `ChangeEmployeePassword`. |
| Kanban.Filter | tasks/utils.py:12-15 | A filter keeps only tasks that satisfy the condition and come from the input, and is no longer than the input. |
| Kanban.FilterAppend | tasks/utils.py:23 | Filtering distributes over concatenation. |
| Kanban.FilterMultiset | tasks/utils.py:23 | A filter keeps every occurrence of a matching task and no occurrence of any other. |
| Kanban.FilterNone | tasks/utils.py:23 | A filter that matches no task gives the empty result. |
| Kanban.SumPaymentAppend | tasks/utils.py:24 | The payment total of two task lists together is the sum of their totals. |
| Kanban.InsertMultiset | tasks/utils.py:23 | Inserting a task into the ordered list adds exactly that task and its payment. |
| Kanban.SortedCons | tasks/utils.py:23 | A task due no later than every task of an ordered list can go in front. |
| Kanban.InsertSorted | tasks/utils.py:23 | Inserting keeps the list ordered by due date, then creation date. |
| Kanban.SortByDueSpec | tasks/utils.py:23 | `order_by('due_date', 'created_date')` gives an ordered permutation of its input with the same payment total. |
| Kanban.SortByDue | tasks/utils.py:23 | `order_by('due_date', 'created_date')` as an insertion sort that keeps ties in input order. `SortByDueSpec` proves it an ordered permutation. |
| Kanban.GroupContents | tasks/utils.py:21-31 | A board group is ordered and holds exactly the scoped tasks with its status. Its count and total are those of the status filter; both are 0 when no task has that status. |
| Kanban.ByStatusStep | tasks/utils.py:21-31 | One more task raises the per-status count by one, and the total by its payment, exactly when its status is one of the codes. |
| Kanban.ByStatusCovers | tasks/utils.py:21-38 | When every task's status is one of a list of distinct codes, the per-status counts add up to the number of tasks and the per-status totals to the overall total. |
| Kanban.ByStatusEmpty | tasks/utils.py:21-31 | No tasks give zero counts and zero totals. |
| Kanban.StatusGroupsCover | tasks/utils.py:18-38 | When every task has one of the five board statuses, the five group counts add up to `total_tasks` and the group totals to `total_payment`. |
| Kanban.GroupSums | tasks/utils.py:21-31 | The sums of the groups' counts and totals are the per-status counts and totals. |
| Kanban.GetKanbanData | tasks/utils.py:5-38 | There are five groups in the board order, each exactly the group for its status over the scoped tasks: those of `assigned_to_user` when given, else the user's own. The totals are those of the scoped tasks, and they equal the sums of the groups when every scoped status is on the board. |
| Kanban.GroupByAssignee | tasks/utils.py:56-61 | The map's keys are exactly the group's assignees, and each maps to that assignee's tasks in their order. |
| Kanban.GroupedStep | tasks/utils.py:57-61 | Appending a task to its assignee's list keeps the map grouped by assignee. |
| Kanban.UserTasksPartition | tasks/utils.py:56-61 | Each task of a group is listed under its assignee as many times as it occurs in the group. Every listed task belongs to that user and to the group. |
| Kanban.GetTeamKanbanData | tasks/utils.py:40-77 | There are five groups in the board order, each with the team's tasks of its status and its per-assignee split. Every grouped task belongs to the team, has the group's status and is stored. The totals are those of the team's tasks. |
| ReleaseModels.CommaList | releases/models.py:75-81 | An empty field gives the empty list. Otherwise there is one stripped item per comma-separated piece, one more item than there are commas. |
| ReleaseModels.CommaListJoin | releases/models.py:75-81 | Non-empty, comma-free, stripped items joined with `,` read back as the same list. |
| ReleaseModels.PlatformsList | releases/models.py:75-77 | The list is empty exactly when the field is empty, and has one item per comma plus one. |
| ReleaseModels.LanguagesList | releases/models.py:79-81 | The list is empty exactly when the field is empty, and has one item per comma plus one. |
| ReleaseModels.MarketplacePlatformsDict | releases/models.py:83-85 | The result is the stored map, or `{}` when none is stored. |
| ReleaseModels.ListRepr | releases/models.py:39-42 | A list of strings assigned to a text field is held as `str(list)`, bracketed and quoted, e.g. `['ENGLISH', 'RUSSIAN']`. |
| ReleaseModels.OneStoredItemReadsBack | releases/models.py:75-81 | A single comma-free item held as `str(list)` reads back as one item with the brackets and quotes still around it. |
| ReleaseModels.FirstStoredItemReadsBack | releases/models.py:75-81 | Of two or more items held as `str(list)`, the first reads back with the opening bracket and its quotes. |
| ReleaseModels.StoredListReadsBackWrong | releases/models.py:75-81 | A non-empty, comma-free list held as `str(list)` does not read back as the list. Its first item comes back with the bracket and quotes around it. |
| ReleaseModels.MarketplacesList | releases/views.py:21 | This stands for `get_marketplaces_list`, which releases/models.py does not define: the stored marketplace list. |
| ReleaseModels.IsReleased | releases/models.py:87-90 | The release date is today or earlier. `DaysUntilRelease` is 0 exactly then. |
| ReleaseModels.DaysUntilRelease | releases/models.py:92-98 | The result is the days from today to a future release. It is 0 exactly when the game is released. |
| ReleaseViews.FirstIndex | releases/views.py:24-26 | The position of the first occurrence. |
| ReleaseViews.RemoveFirst | releases/views.py:26 | `list.remove` of a present element drops one occurrence of it and nothing else. An absent element leaves the list as it was. |
| ReleaseViews.RemoveFirstAt | releases/views.py:26 | Removal drops the first occurrence and keeps the rest in order. |
| ReleaseViews.ToggleList | releases/views.py:24-34 | An absent marketplace is appended. A present one loses exactly one occurrence. Afterwards it is in the list exactly when it was absent or occurred more than once. |
| ReleaseViews.ToggleSelects | releases/views.py:24-44 | On a list without duplicates the marketplace is selected afterwards exactly when it was not before. The list stays without duplicates. |
| ReleaseViews.NoDuplicatesWithout | releases/views.py:26 | Dropping one element keeps a list without duplicates. |
| ReleaseViews.OccursOnce | releases/views.py:24-26 | In a list without duplicates every element occurs once. |
| ReleaseViews.ToggleTwiceRestores | releases/views.py:24-34 | Adding a marketplace and toggling it again gives the original list back. |
| ReleaseViews.ToggleKeepsOthers | releases/views.py:24-34 | An append keeps the old list in front. A removal keeps all the other marketplaces in order. |
| ReleaseViews.ToggleMarketplace | releases/views.py:21-38 | The marketplaces are toggled. On removal the marketplace loses its platform entry and every other entry is kept. On addition the platform map is untouched. No other field changes. |
| ReleaseViews.TogglePublish | releases/views.py:183 | The published flag flips and nothing else changes. |
| ReleaseViews.TogglePublishTwice | releases/views.py:180-184 | Flipping twice restores the release. |
| ReleaseViews.Catalogue.constructor | releases/views.py:13-46 | The catalogue starts with the given releases. |
| ReleaseViews.Catalogue.ToggleMarketplaceView | releases/views.py:13-46 | A non-POST request, or a missing or empty marketplace, answers invalid and changes nothing. A missing release answers 404. Otherwise the release becomes `ToggleMarketplace` of itself, and the answer says whether the marketplace is now selected. |
| ReleaseViews.Catalogue.TogglePublishView | releases/views.py:180-190 | A non-superuser gets no response and nothing changes. A missing release answers 404. Otherwise the release's flag flips and is reported with its id. |
| ReleaseViews.StartPage | releases/views.py:118-128 | A `page` in the request is passed on. Without one, the start page is the page of the first release dated today or later: that release's index divided by 20, plus 1. When there is no such release, the missing `page` is passed on. |
| Text.Lower | releases/ign_parser.py:247 | Lower-casing keeps a character alphanumeric or not, and keeps a non-space character non-space. |
| Text.LowerLower | releases/ign_parser.py:247 | Lower-casing twice is lower-casing once. |
| Text.LowerStr | releases/management/commands/check_localizations.py:41 | `lower()` has the same length and lower-cases each character. |
| Text.Split | releases/models.py:77 | `split(',')` gives at least one piece, and no piece holds the separator. |
| Text.StripLeft | releases/ign_parser.py:206 | `lstrip()` removes exactly the leading whitespace. |
| Text.StripRight | releases/ign_parser.py:206 | `rstrip()` removes exactly the trailing whitespace. |
| Text.Strip | releases/ign_parser.py:206 | `strip()` gives a string with neither end whitespace. |
| Text.StripStripped | releases/models.py:77 | Stripping a stripped string changes nothing. |
| Text.WordLen | releases/management/commands/check_localizations.py:43 | The length of the leading run of non-whitespace characters. |
| Text.Words | releases/management/commands/check_localizations.py:43 | `split()` gives non-empty pieces without whitespace. |
| Text.SplitCount | releases/models.py:77 | `split(sep)` gives one more piece than there are separators. |
| Text.JoinSplit | releases/models.py:77 | Joining the pieces of a split gives the string back. |
| Text.SplitNoSep | releases/models.py:77 | A string without the separator is one piece. |
| Text.SplitAfter | releases/models.py:77 | A separator-free prefix and a separator split off as one piece. |
| Text.SplitJoin | releases/models.py:77 | Splitting a join of separator-free items gives the items back. |
| Text.JoinSeparatorsIsolated | releases/management/commands/check_localizations.py:43 | A join of non-empty, separator-free words neither starts nor ends with the separator and never holds two in a row. |
| Text.WordLenPrefix | releases/management/commands/check_localizations.py:43 | A whitespace-free word followed by whitespace or nothing is the leading run. |
| Text.WordsJoin | releases/management/commands/check_localizations.py:43 | `" ".join(words).split()` gives non-empty, whitespace-free words back. |
| Text.WordsChars | releases/management/commands/check_localizations.py:43 | Every character of every word comes from the string. |
| Localization.Clean | releases/management/commands/check_localizations.py:42 | Alphanumeric characters and spaces are kept, and every other character becomes a space. |
| Localization.Slug | releases/management/commands/check_localizations.py:41-43 | The title lower-cased, punctuation blanked, and its words joined by `-`. `SlugShape` and `SlugIdempotent` state its shape. |
| Localization.DekuDealsUrl | releases/management/commands/check_localizations.py:39-44 | The URL is the DekuDeals items prefix followed by the title's slug. |
| Localization.JoinCharsIn | releases/management/commands/check_localizations.py:43 | A join uses only the items' characters and the separator. |
| Localization.SlugWords | releases/management/commands/check_localizations.py:41-43 | The words of the cleaned, lower-cased title are made of the slug alphabet. |
| Localization.SlugShape | releases/management/commands/check_localizations.py:41-44 | A slug holds only `-` and lower-cased alphanumeric characters of the title. It neither starts nor ends with `-` and never has two `-` in a row. |
| Localization.LowerStrFixed | releases/management/commands/check_localizations.py:41 | A string of characters that are their own lower case is unchanged by `lower()`. |
| Localization.CleanJoin | releases/management/commands/check_localizations.py:42-43 | Blanking punctuation in a `-`-join of alphanumeric words gives their space-join. |
| Localization.SlugIdempotent | releases/management/commands/check_localizations.py:41-43 | The slug of a slug is the slug. |
| Localization.AddOnce | releases/management/commands/check_localizations.py:65 | After `if code not in loco: loco.append(code)` the code is present, and no code other than it is added. |
| Localization.AddOnceValid | releases/management/commands/check_localizations.py:65-79 | Adding a known code once keeps the list without duplicates. |
| Localization.ScanValid | releases/management/commands/check_localizations.py:61-79 | Scanning sections keeps the codes distinct and limited to `RUSSIAN` and `ENGLISH`. |
| Localization.SomeSectionRussianAppend | releases/management/commands/check_localizations.py:63-65 | Some section of a longer list mentions Russian exactly when one of the earlier sections or the new one does. |
| Localization.SomeSectionEnglishAppend | releases/management/commands/check_localizations.py:66-68 | Some section of a longer list mentions English exactly when one of the earlier sections or the new one does. |
| Localization.ScanFinds | releases/management/commands/check_localizations.py:61-79 | After a scan a code is present exactly when it was before or some section with a marker mentions the language. |
| Localization.PageLanguagesSpec | releases/management/commands/check_localizations.py:60-79 | The codes of a page are distinct and known. `RUSSIAN` is present exactly when a list item with an English marker, or a detail section with any marker, mentions Russian; likewise `ENGLISH`. |
| Localization.PageLanguages | releases/management/commands/check_localizations.py:60-79 | The list-item sections are scanned first, then the detail sections, starting from no codes. `PageLanguagesSpec` states what it holds. |
| Localization.LocalizationResult | releases/management/commands/check_localizations.py:46-92 | The result is `None` exactly when every request raised. |
| Localization.FirstResponseDecides | releases/management/commands/check_localizations.py:51-85 | The first request that answers decides: a status-200 page gives its codes, and any other status gives `[]`. |
| Localization.ScanSections | releases/management/commands/check_localizations.py:60-79 | The two section loops compute the page's codes. |
| Localization.CheckGameLocalization | releases/management/commands/check_localizations.py:46-92 | The loop over the session cookies computes `LocalizationResult`. |
| Localization.SortCodes | releases/management/commands/check_localizations.py:133 | `sort()` keeps exactly the known codes, without duplicates, and in ascending order: any two codes are `ENGLISH` then `RUSSIAN`. |
| Localization.OccurrencesNoDuplicates | releases/management/commands/check_localizations.py:133 | In a list without duplicates a code occurs once or not at all. |
| Localization.SortCodesPermutes | releases/management/commands/check_localizations.py:133 | Sorting valid codes gives a permutation, and an empty one only from an empty list. |
| Localization.OutcomeAsWritten | releases/management/commands/check_localizations.py:132-143 | As written, a game whose every request raised crashes the command, and no game ever counts as failed. Only the control flow is as written; the codes are stored comma-separated. |
| Localization.Outcome | releases/management/commands/check_localizations.py:132-143 | A game is failed exactly when every request raised, and never crashes. Otherwise the outcome is the same as written. |
| Localization.SortBeforeNoneCheck | releases/management/commands/check_localizations.py:132-135 | One raising request crashes the command as written but counts as failed as intended. |
| Localization.UpdateReadsBack | releases/management/commands/check_localizations.py:137-140 | An update happens exactly when codes were found. The stored field reads back as the sorted codes, a permutation of those found. |
| Localization.UpdateAsWrittenReadsBackWrong | releases/management/commands/check_localizations.py:138 | As written, the found codes are assigned as a list, held as `str(list)`, and do not read back as the codes. |
| Localization.Selected | releases/management/commands/check_localizations.py:102-116 | A non-zero id selects exactly that game. Otherwise `--force-all` selects every game, or else a game is selected when its languages list `UNKNOW`. |
| Localization.SelectedIndices | releases/management/commands/check_localizations.py:102-118 | The positions are ascending and are exactly those of the selected games: the given id, or all with `--force-all`, or those listing `UNKNOW`. |
| Localization.ApplyOutcome | releases/management/commands/check_localizations.py:137-139 | Only an update changes a game, and only its languages. |
| Localization.HandledTable | releases/management/commands/check_localizations.py:129-143 | After the command a game that was not selected is unchanged, and each selected game carries its own outcome. |
| Localization.CountOutcomesStep | releases/management/commands/check_localizations.py:137-143 | A further game adds one to the count of its outcome kind. |
| Localization.CountOutcomesBound | releases/management/commands/check_localizations.py:125-143 | Updated plus failed games are at most the games checked. |
| Localization.HandleReportSpec | releases/management/commands/check_localizations.py:121-155 | The command reports nothing to check exactly when no game is selected. Otherwise its total is the number of selected games, and updated plus failed is at most that total. |
| Localization.UpdatedGameNotReselected | releases/management/commands/check_localizations.py:113-116 | An updated game no longer lists `UNKNOW`, so a default run does not select it again. |
| Localization.UpdatedCodesNotReselected | releases/management/commands/check_localizations.py:113-116 | A game updated with valid codes is not selected by a default run. |
| Localization.ResultCodesValid | releases/management/commands/check_localizations.py:46-92 | Every lookup result holds distinct known codes. |
| Localization.SelectGames | releases/management/commands/check_localizations.py:102-118 | The selection loop computes the selected positions. |
| Localization.CheckGame | releases/management/commands/check_localizations.py:132-140 | Checking one game stores its outcome at its position, and nowhere else. |
| Localization.HandledStep | releases/management/commands/check_localizations.py:129-143 | Handling one more selected position extends the handled prefix. |
| Localization.HandledAll | releases/management/commands/check_localizations.py:129-143 | Once every selected position is handled, the table is the handled table. |
| Localization.CheckAllStep | releases/management/commands/check_localizations.py:129-143 | The next selected game is still untouched, and handling it extends the handled prefix and the counts. |
| Localization.CheckAll | releases/management/commands/check_localizations.py:125-143 | The loop handles every selected game and counts the updated and the failed ones. |
| Localization.Handle | releases/management/commands/check_localizations.py:94-155 | The table afterwards is the handled table, and the report is the command's report. |
| IgnParser.FirstLine | releases/ign_parser.py:211 | The first line is the prefix up to the first line break and holds no line break. |
| IgnParser.FirstLineSplit | releases/ign_parser.py:211 | `text.split('\n')[0] if '\n' in text else text` is the first line. |
| IgnParser.ParsedElement | releases/ign_parser.py:200-229 | There is no entry exactly when the stripped text is shorter than 2. Otherwise the entry has platform `PS5`, a date 60 days ahead and the `href` when non-empty. Its title is the `title` attribute when that is longer than the first line, else the first line. |
| IgnParser.ParsedTitleNonEmpty | releases/ign_parser.py:206-227 | A parsed title is never empty, and is at least as long as the first line. |
| IgnParser.ParseGameElement | releases/ign_parser.py:200-229 | The element parse computes `ParsedElement`. |
| IgnParser.LowerStrIdempotent | releases/ign_parser.py:247 | Lower-casing a lower-cased title changes nothing. |
| IgnParser.IsValidGame | releases/ign_parser.py:235-250 | A title is valid when it is non-empty, 2 to 200 characters long, and its lower-case form contains none of the six excluded words. |
| IgnParser.IsValidGameIgnoresCase | releases/ign_parser.py:235-250 | A title and its lower-case form are valid or rejected together. |
| IgnParser.RejectsIgnAnyCase | releases/ign_parser.py:246-248 | A title that contains `IGN` in upper or mixed case is rejected. |
| IgnParser.ValidEntries | releases/ign_parser.py:145-151 | There are no more kept entries than elements. |
| IgnParser.ValidEntriesKept | releases/ign_parser.py:145-151 | Every kept entry has a valid title, the `PS5` platform and the date 60 days ahead. |
| IgnParser.ValidEntriesNext | releases/ign_parser.py:145-151 | One more element is kept exactly when it parses to a valid entry. |
| IgnParser.Head | releases/ign_parser.py:145 | `elements[:10]` is the prefix of at most 10 elements. |
| IgnParser.PassEntries | releases/ign_parser.py:139-160 | A pass keeps at most 10 entries, none when no selector found anything. |
| IgnParser.PassEntriesFirstFound | releases/ign_parser.py:139-160 | The first selector that finds any elements decides the pass: only its first ten elements are parsed. |
| IgnParser.PageEntries | releases/ign_parser.py:123-198 | The page gives at most 10 entries: the XPath pass when it kept any, else the CSS pass. |
| IgnParser.PassEntriesKept | releases/ign_parser.py:139-192 | Every entry of a pass is valid, on `PS5` and dated 60 days ahead. |
| IgnParser.PageEntriesKept | releases/ign_parser.py:123-198 | Every entry of a page is valid, on `PS5` and dated 60 days ahead. |
| IgnParser.Truncate | releases/ign_parser.py:269 | `title[:200]` is a prefix of at most 200 characters, the whole title when it fits. |
| IgnParser.NewRelease | releases/ign_parser.py:268-277 | The release stored for an entry, with its lists stored comma-joined. `NewReleaseSpec` states its fields. |
| IgnParser.NewReleaseAsWritten | releases/ign_parser.py:268-277 | As written, the platform and language lists are assigned to the text fields as `str(list)`. |
| IgnParser.ListFieldsAsWritten | releases/ign_parser.py:271-273 | As written, a new release's languages read back starting with `['ENGLISH'`, not as English and Russian. A `PS5` entry's platforms read back as the single item `['PS5']`. |
| IgnParser.NewReleaseSpec | releases/ign_parser.py:268-277 | A new release has the truncated title and the entry's date. It is unpublished, with no marketplaces and an empty platform map. Its languages read as `ENGLISH, RUSSIAN`. |
| IgnParser.Saved | releases/ign_parser.py:252-288 | No more releases are created than entries. |
| IgnParser.SavedIds | releases/ign_parser.py:279-280 | New releases get consecutive ids in the order they are saved. |
| IgnParser.SavedNext | releases/ign_parser.py:256-280 | One more entry is appended unless its title is taken, ignoring case. |
| IgnParser.SavedPrefix | releases/ign_parser.py:256-280 | What the first entries create is a prefix of what the whole batch creates. |
| IgnParser.SavedSpec | releases/ign_parser.py:256-280 | After saving, every entry's title is in the table ignoring case. A table with distinct titles keeps them distinct. |
| IgnParser.SavedSkips | releases/ign_parser.py:259-265 | An entry is skipped exactly when its title is already taken, ignoring case. |
| IgnParser.SaveAll | releases/ign_parser.py:256-288 | The save loop creates exactly `Saved`. |
| IgnParser.ReleaseParser.constructor | releases/ign_parser.py:44-91 | The counters start at 0, with the given table and first free id. |
| IgnParser.ParseEntries | releases/ign_parser.py:145-154 | The loop keeps exactly the entries that parse to a valid game, in element order: its result is `ValidEntries`. |
| IgnParser.ReleaseParser.ParseElements | releases/ign_parser.py:145-154 | The element loop keeps `ValidEntries` and counts each kept entry in `games_parsed`. |
| IgnParser.ReleaseParser.ParsePass | releases/ign_parser.py:139-160 | A selector pass keeps `PassEntries` and counts each kept entry. |
| IgnParser.ReleaseParser.ParseGamesFromPage | releases/ign_parser.py:123-198 | The page parse keeps `PageEntries` and counts each kept entry. |
| IgnParser.ReleaseParser.SaveToDatabase | releases/ign_parser.py:252-288 | It creates exactly `Saved` and appends it to the table, taking the next ids. |
| IgnParser.ReleaseParser.ParseReleases | releases/ign_parser.py:44-91 | A page that fails to load adds one error and changes no other counter, the table or the next id. Otherwise one page is loaded, the page's entries are counted and saved with consecutive ids, `games_saved` is the number saved, and the error count is unchanged. |

## Left out

- The browser and the network are not modelled: Selenium, `requests` and BeautifulSoup are left out. Their results are parameters: the elements a selector finds, with their text and attributes; each request's status and section texts; whether the page loads.
- Screenshots, the saved HTML, `time.sleep`, console output, `_analyze_page_structure`, `_print_stats`, `get_parser_stats`, `run_parser` and the `driver.quit` cleanup are left out. They do not affect the stored data.
- A parser exception other than a failed page load is not modelled: an exception in one element, in a save, or around the whole page parse. The model treats a failing selector query as finding nothing, so the parser moves on to the next selector.
- The ORM, templates, messages and redirect targets are modelled only as the response kinds the views return. The release list's filters, sort and statistics, the Paginator's `get_page`, and the other release views (detail, create, update, `toggle_platform_publication`) are not part of this model.
- The dashboards, the user's own `change_password`, logout and authentication are not part of this model.
- Password hashing is not modelled: `set_password` is modelled as storing the password as given.
- Form validation comes from Django's field rules; the model reduces it to the conditions in `EmployeeFormValid` and `TaskFormValid`.
- Concurrency is left out: each view or command runs alone against the store.
- Text handling covers ASCII and basic Cyrillic only. `isalnum`, `isspace` and `lower` on other Unicode characters are not modelled.
- `title__iexact` is modelled as equality after lower-casing.
- The `marketplaces` field and `get_marketplaces_list` are assumed: releases/models.py:5-98 declares neither, and `GameReleaseForm.save` only sets a plain attribute (releases/forms.py:55). The model takes the marketplaces to be a stored list of strings. As the source is shown, `toggle_marketplace` raises `AttributeError` at releases/views.py:21 on every POST that names a marketplace. `GameRelease(..., marketplaces=[], ...)` at releases/ign_parser.py:268-277 raises `TypeError`, which the `except` at 283-286 counts as an error, so the parser saves nothing.
- The parser and the localization command assign Python lists to the `platforms` and `languages` text fields, which hold them as `str(list)` (the first two findings below). The model's corrected members store them comma-joined, as `get_platforms_list` and `get_languages_list` read them back.
- The `description`, `icon`, `price`, `created_at` and `updated_at` fields are dropped. Nothing in the modelled code reads them. `GameRelease` has no `url` field: the parser writes the entry's URL only into `description` (releases/ign_parser.py:275), so dropping `description` drops it too. The parsed entry keeps its `url`.
- `get_team_users` is not part of this model; the team is given as a set of account ids. The team board keeps the team tasks in their stored order, as the source does not sort them.
- The forms module of the task tracker cannot be imported as shown. `PaymentForm` (tasks/forms.py:22-25) names a model `Payment` that tasks/models.py:1-34 does not define, so its class body raises `NameError`. `UserProfileForm` (tasks/forms.py:69-74) lists `telegram_username`, and `UserRegistrationForm` (tasks/forms.py:58-60) lists `tags`. Neither is a field of `CustomUser` or declared on its form, which Django refuses with `FieldError`. tasks/views.py:6 imports that module, so as shown none of the task views runs. The task views here model the evident intent, with a working forms module.
- `timezone.now()` is a parameter. `tasks/views.py` does not import `timezone` or `messages`, and the model follows the evident intent. Were the forms module importable, the views would still fail as written. `submit_task` would stop with `NameError` at tasks/views.py:77, before anything is saved. `change_employee_password` would save the new password at lines 133-134 and then stop with `NameError` at line 135: the password would change, but the request would fail instead of redirecting. A POST with an empty password would stop with `NameError` at line 138, where the model renders the form again.
- The `delay` between checked games is left out.
- The employee form's first name, last name and email are read but not stored: the `User` record keeps only the fields the modelled views use.
- `ChoiceName` returns the first choice with a given code, where `dict()` keeps the last. The declared status codes are distinct, so the two agree.
- Kanban.GroupByAssignee: the map of per-user task lists does not keep the insertion order of its keys, which Python's `dict` does.
- `release_list` as written fails before the start page is reached: `GameReleaseFilterForm` is not defined in releases/forms.py, and `cleaned_data` is read before `is_valid()` (releases/views.py:80-82). `StartPage` models the start-page computation alone.
- Decimal arithmetic is modelled on integer cents without the 10-digit limit on the balance. `Complete` may therefore credit past what the column can hold, where the database would refuse the save.
- IgnParser.ValidEntries: its own contract states only the length bound; what it keeps is stated by `ValidEntriesKept` and `ValidEntriesNext`.
- IgnParser.Saved: its own contract states only the length bound; the ids, order, skips and titles are stated by `SavedIds`, `SavedPrefix`, `SavedSkips` and `SavedSpec`.

## Findings

| source | as written | input that shows it | evidently intended | confidence | as-written member | corrected member |
|---|---|---|---|---|---|---|
| releases/ign_parser.py:271-273 | `platforms=[...]` and `languages=['ENGLISH', 'RUSSIAN']` assign lists to text fields | a saved release holds `"['ENGLISH', 'RUSSIAN']"`, which `get_languages_list` reads back as `["['ENGLISH'", "'RUSSIAN']"]` | the fields hold comma-separated codes, which read back as `['ENGLISH', 'RUSSIAN']` | not executed | IgnParser.NewReleaseAsWritten (shown by IgnParser.ListFieldsAsWritten) | IgnParser.NewRelease (proved by IgnParser.NewReleaseSpec) |
| releases/management/commands/check_localizations.py:138 | `game.languages = new_loco` assigns the sorted list to a text field | codes `['ENGLISH', 'RUSSIAN']` are stored as `"['ENGLISH', 'RUSSIAN']"`, which reads back with brackets and quotes | the field holds the comma-separated codes | not executed | Localization.UpdateAsWrittenReadsBackWrong (over ReleaseModels.ListRepr) | Localization.Outcome (proved by Localization.UpdateReadsBack) |
| releases/management/commands/check_localizations.py:132-135 | `new_loco.sort()` runs before the `if new_loco is not None` check | a game for which every cookie's request raises `RequestException`: `check_game_localization` returns `None`, and `None.sort()` raises `AttributeError`, stopping the command | the game is counted in `failed_count` and the loop goes on | not executed | Localization.OutcomeAsWritten (shown by Localization.SortBeforeNoneCheck) | Localization.Outcome |

=== FILE: check_localizations.dfy ===
/**
 * The localisation checker: the DekuDeals address of a game, the language codes
 * read off the section texts of its page, and the pass over the release table
 * that records the codes it finds.
 *
 * The page is reduced to what the checker reads from it: for every request (one
 * per session cookie) either the request raised, or it answered with a status
 * code, the texts of the `div > div > ul > li` sections and the texts of the
 * detail sections. The network is the function `fetch` from an address to those
 * outcomes.
 */
module Localization {
  import opened Wrappers
  import opened Text
  import opened ReleaseModels
  import opened ReleaseViews

  const DekuDealsPrefix: string := "https://www.dekudeals.com/items/"

  // ---------------------------------------------------------------------------
  // The address of a game
  // ---------------------------------------------------------------------------

  /** Every character that is neither alphanumeric nor a plain space becomes a space. */
  function Clean(s: string): (r: string)
    ensures |r| == |s|
    ensures forall i :: 0 <= i < |s| ==> r[i] == if IsAlnum(s[i]) || s[i] == ' ' then s[i] else ' '
  {
    seq(|s|, i requires 0 <= i < |s| => if IsAlnum(s[i]) || s[i] == ' ' then s[i] else ' ')
  }

  /** The slug of a title: lower-cased, punctuation blanked, words joined by `-`. */
  function Slug(title: string): string {
    Join(Words(Clean(LowerStr(title))), '-')
  }

  /** `get_dekudeals_url`. */
  function DekuDealsUrl(title: string): (url: string)
    ensures |url| >= |DekuDealsPrefix| && url[..|DekuDealsPrefix|] == DekuDealsPrefix
    ensures url[|DekuDealsPrefix|..] == Slug(title)
  {
    DekuDealsPrefix + Slug(title)
  }

  /** Every character of `s` is in `pool`. */
  predicate CharsIn(s: string, pool: set<char>) {
    forall i :: 0 <= i < |s| ==> s[i] in pool
  }

  /** The characters a slug of `title` is built from: alphanumeric characters of the
      lower-cased title, which lower-casing leaves alone. */
  function SlugAlphabet(title: string): set<char> {
    set c | c in LowerStr(title) && IsAlnum(c) && Lower(c) == c
  }

  lemma {:induction false} JoinCharsIn(items: seq<string>, sep: char, pool: set<char>)
    requires forall k :: 0 <= k < |items| ==> CharsIn(items[k], pool)
    ensures CharsIn(Join(items, sep), pool + {sep})
    decreases |items|
  {
    if |items| >= 2 {
      JoinCharsIn(items[1..], sep, pool);
      var a, t := items[0], Join(items[1..], sep);
      var r := a + [sep] + t;
      forall i | 0 <= i < |r| ensures r[i] in pool + {sep} {
        if i < |a| {
          assert r[i] == a[i];
        } else if i > |a| {
          assert r[i] == t[i - |a| - 1];
        }
      }
    }
  }

  /** The words of the cleaned, lower-cased title are non-empty runs of slug characters. */
  lemma SlugWords(title: string)
    ensures forall k :: 0 <= k < |Words(Clean(LowerStr(title)))| ==>
      Words(Clean(LowerStr(title)))[k] != [] && CharsIn(Words(Clean(LowerStr(title)))[k], SlugAlphabet(title))
  {
    var lowered := LowerStr(title);
    var cleaned := Clean(lowered);
    var ws := Words(cleaned);
    WordsChars(cleaned);
    forall k, i | 0 <= k < |ws| && 0 <= i < |ws[k]| ensures ws[k][i] in SlugAlphabet(title) {
      var c := ws[k][i];
      assert c in cleaned && !IsSpace(c);
      var j :| 0 <= j < |cleaned| && cleaned[j] == c;
      assert c == lowered[j] && IsAlnum(c);
      LowerLower(title[j]);
    }
  }

  /** A slug is made only of `-` and alphanumeric characters of the lower-cased title;
      it neither starts nor ends with `-` and never holds `--`. */
  lemma SlugShape(title: string)
    ensures forall i :: 0 <= i < |Slug(title)| ==>
      Slug(title)[i] == '-' || (IsAlnum(Slug(title)[i]) && Slug(title)[i] in LowerStr(title))
    ensures Slug(title) != [] ==> Slug(title)[0] != '-' && Slug(title)[|Slug(title)| - 1] != '-'
    ensures forall i :: 0 <= i < |Slug(title)| - 1 ==> !(Slug(title)[i] == '-' && Slug(title)[i + 1] == '-')
  {
    var ws := Words(Clean(LowerStr(title)));
    SlugWords(title);
    JoinCharsIn(ws, '-', SlugAlphabet(title));
    forall k | 0 <= k < |ws| ensures '-' !in ws[k] {
      assert CharsIn(ws[k], SlugAlphabet(title));
      assert forall i :: 0 <= i < |ws[k]| ==> IsAlnum(ws[k][i]);
    }
    JoinSeparatorsIsolated(ws, '-');
  }

  /** Lower-casing a string of lower-case-fixed characters changes nothing. */
  lemma LowerStrFixed(s: string)
    requires forall i :: 0 <= i < |s| ==> Lower(s[i]) == s[i]
    ensures LowerStr(s) == s
  {
  }

  /** Cleaning a `-`-joined list of alphanumeric words turns the dashes into spaces. */
  lemma {:induction false} CleanJoin(ws: seq<string>)
    requires forall k :: 0 <= k < |ws| ==> forall i :: 0 <= i < |ws[k]| ==> IsAlnum(ws[k][i])
    ensures Clean(Join(ws, '-')) == Join(ws, ' ')
    decreases |ws|
  {
    if |ws| >= 2 {
      CleanJoin(ws[1..]);
      var a := ws[0];
      var d, s := Join(ws[1..], '-'), Join(ws[1..], ' ');
      var l, r := a + ['-'] + d, a + [' '] + s;
      assert Clean(d) == s;
      forall i | 0 <= i < |l| ensures Clean(l)[i] == r[i] {
        if i < |a| {
          assert l[i] == a[i] && r[i] == a[i];
        } else if i > |a| {
          assert l[i] == d[i - |a| - 1] && r[i] == s[i - |a| - 1];
          assert Clean(d)[i - |a| - 1] == s[i - |a| - 1];
        }
      }
    } else if |ws| == 1 {
      assert Clean(ws[0]) == ws[0];
    }
  }

  /** Slugging a slug gives it back. */
  lemma SlugIdempotent(title: string)
    ensures Slug(Slug(title)) == Slug(title)
  {
    var ws := Words(Clean(LowerStr(title)));
    var slug := Join(ws, '-');
    var pool := SlugAlphabet(title);
    SlugWords(title);
    JoinCharsIn(ws, '-', pool);
    assert forall i :: 0 <= i < |slug| ==> slug[i] in pool + {'-'};
    LowerStrFixed(slug);
    forall k | 0 <= k < |ws| ensures forall i :: 0 <= i < |ws[k]| ==> IsAlnum(ws[k][i]) && !IsSpace(ws[k][i]) {
      assert CharsIn(ws[k], pool);
    }
    CleanJoin(ws);
    WordsJoin(ws);
  }

  // ---------------------------------------------------------------------------
  // Language codes read off the page
  // ---------------------------------------------------------------------------

  /** What one request for the page came to. */
  datatype Attempt =
    | Raised
    | Responded(statusCode: int, listItems: seq<string>, details: seq<string>)

  const Russian: string := "RUSSIAN"
  const English: string := "ENGLISH"

  /** The language marker of a section: list items look for the English markers only,
      detail sections for the Russian ones as well. */
  predicate HasMarker(text: string, isDetails: bool) {
    Contains(text, "Languages:") || Contains(text, "Language:")
    || (isDetails && (Contains(text, "Языки:") || Contains(text, "Язык:")))
  }

  predicate MentionsRussian(text: string) {
    Contains(text, "Russian") || Contains(text, "русский") || Contains(text, "Русский")
  }

  predicate MentionsEnglish(text: string) {
    Contains(text, "English")
  }

  /** `if code not in loco: loco.append(code)`. */
  function AddOnce(loco: seq<string>, code: string): (r: seq<string>)
    ensures code in r && forall c :: c in r <==> c in loco || c == code
  {
    if code in loco then loco else loco + [code]
  }

  /** The codes after reading one section. */
  function SectionStep(loco: seq<string>, text: string, isDetails: bool): seq<string> {
    var withRussian := if HasMarker(text, isDetails) && MentionsRussian(text) then AddOnce(loco, Russian) else loco;
    if HasMarker(text, isDetails) && MentionsEnglish(text) then AddOnce(withRussian, English) else withRussian
  }

  /** The codes after reading the sections `texts` in order, starting from `loco`. */
  function Scan(loco: seq<string>, texts: seq<string>, isDetails: bool): seq<string> {
    if texts == [] then loco
    else SectionStep(Scan(loco, texts[..|texts| - 1], isDetails), texts[|texts| - 1], isDetails)
  }

  /** The codes found on a page with status 200: list items first, then detail sections. */
  function PageLanguages(listItems: seq<string>, details: seq<string>): seq<string> {
    Scan(Scan([], listItems, false), details, true)
  }

  /** No code twice, and only the two codes the checker knows. */
  predicate ValidCodes(loco: seq<string>) {
    NoDuplicates(loco)
    && forall i :: 0 <= i < |loco| ==> loco[i] == Russian || loco[i] == English
  }

  /** Some section of `texts` has the marker and mentions the language. */
  predicate SomeSectionRussian(texts: seq<string>, isDetails: bool) {
    exists k :: 0 <= k < |texts| && HasMarker(texts[k], isDetails) && MentionsRussian(texts[k])
  }

  predicate SomeSectionEnglish(texts: seq<string>, isDetails: bool) {
    exists k :: 0 <= k < |texts| && HasMarker(texts[k], isDetails) && MentionsEnglish(texts[k])
  }

  lemma AddOnceValid(loco: seq<string>, code: string)
    requires ValidCodes(loco) && (code == Russian || code == English)
    ensures ValidCodes(AddOnce(loco, code))
  {
  }

  /** Reading sections keeps the codes duplicate-free and known. */
  lemma {:induction false} ScanValid(loco: seq<string>, texts: seq<string>, isDetails: bool)
    requires ValidCodes(loco)
    ensures ValidCodes(Scan(loco, texts, isDetails))
    decreases |texts|
  {
    if texts != [] {
      var init, text := texts[..|texts| - 1], texts[|texts| - 1];
      ScanValid(loco, init, isDetails);
      var before := Scan(loco, init, isDetails);
      var withRussian := if HasMarker(text, isDetails) && MentionsRussian(text) then AddOnce(before, Russian) else before;
      AddOnceValid(before, Russian);
      AddOnceValid(withRussian, English);
    }
  }

  lemma SomeSectionRussianAppend(init: seq<string>, text: string, isDetails: bool)
    ensures SomeSectionRussian(init + [text], isDetails) <==>
      SomeSectionRussian(init, isDetails) || (HasMarker(text, isDetails) && MentionsRussian(text))
  {
    var texts := init + [text];
    assert texts[|init|] == text;
    if SomeSectionRussian(texts, isDetails) {
      var k :| 0 <= k < |texts| && HasMarker(texts[k], isDetails) && MentionsRussian(texts[k]);
      if k < |init| {
        assert init[k] == texts[k];
      }
    }
    if SomeSectionRussian(init, isDetails) {
      var k :| 0 <= k < |init| && HasMarker(init[k], isDetails) && MentionsRussian(init[k]);
      assert texts[k] == init[k];
    }
  }

  lemma SomeSectionEnglishAppend(init: seq<string>, text: string, isDetails: bool)
    ensures SomeSectionEnglish(init + [text], isDetails) <==>
      SomeSectionEnglish(init, isDetails) || (HasMarker(text, isDetails) && MentionsEnglish(text))
  {
    var texts := init + [text];
    assert texts[|init|] == text;
    if SomeSectionEnglish(texts, isDetails) {
      var k :| 0 <= k < |texts| && HasMarker(texts[k], isDetails) && MentionsEnglish(texts[k]);
      if k < |init| {
        assert init[k] == texts[k];
      }
    }
    if SomeSectionEnglish(init, isDetails) {
      var k :| 0 <= k < |init| && HasMarker(init[k], isDetails) && MentionsEnglish(init[k]);
      assert texts[k] == init[k];
    }
  }

  /** Reading sections adds `RUSSIAN` exactly when some section has the marker and
      mentions Russian, and `ENGLISH` exactly when some section has the marker and
      mentions English. */
  lemma {:induction false} ScanFinds(loco: seq<string>, texts: seq<string>, isDetails: bool)
    ensures Russian in Scan(loco, texts, isDetails) <==> Russian in loco || SomeSectionRussian(texts, isDetails)
    ensures English in Scan(loco, texts, isDetails) <==> English in loco || SomeSectionEnglish(texts, isDetails)
    decreases |texts|
  {
    if texts != [] {
      var init, text := texts[..|texts| - 1], texts[|texts| - 1];
      ScanFinds(loco, init, isDetails);
      assert texts == init + [text];
      SomeSectionRussianAppend(init, text, isDetails);
      SomeSectionEnglishAppend(init, text, isDetails);
    }
  }

  /** The codes of a page never repeat and are only `RUSSIAN` and `ENGLISH`; each is present
      exactly when a list item with an English marker, or a detail section with any marker,
      mentions the language. */
  lemma PageLanguagesSpec(listItems: seq<string>, details: seq<string>)
    ensures ValidCodes(PageLanguages(listItems, details))
    ensures Russian in PageLanguages(listItems, details) <==>
      SomeSectionRussian(listItems, false) || SomeSectionRussian(details, true)
    ensures English in PageLanguages(listItems, details) <==>
      SomeSectionEnglish(listItems, false) || SomeSectionEnglish(details, true)
  {
    ScanValid([], listItems, false);
    ScanValid(Scan([], listItems, false), details, true);
    ScanFinds([], listItems, false);
    ScanFinds(Scan([], listItems, false), details, true);
  }

  /** The result of `check_game_localization` given the outcome of each request in turn:
      the first request that answers decides (its page's codes for status 200, none
      otherwise); `None` when every request raised. */
  function LocalizationResult(attempts: seq<Attempt>): (r: Option<seq<string>>)
    ensures r.None? <==> forall k :: 0 <= k < |attempts| ==> attempts[k].Raised?
  {
    if attempts == [] then None
    else if attempts[0].Raised? then
      var r := LocalizationResult(attempts[1..]);
      assert forall k :: 1 <= k < |attempts| ==> attempts[k] == attempts[1..][k - 1];
      r
    else if attempts[0].statusCode == 200 then Some(PageLanguages(attempts[0].listItems, attempts[0].details))
    else Some([])
  }

  /** The first request that answered decides the result. */
  lemma FirstResponseDecides(attempts: seq<Attempt>, i: nat)
    requires i < |attempts| && attempts[i].Responded?
    requires forall k :: 0 <= k < i ==> attempts[k].Raised?
    ensures LocalizationResult(attempts) ==
      Some(if attempts[i].statusCode == 200 then PageLanguages(attempts[i].listItems, attempts[i].details) else [])
  {
    if i > 0 {
      assert forall k :: 0 <= k < i - 1 ==> attempts[1..][k] == attempts[k + 1];
      FirstResponseDecides(attempts[1..], i - 1);
    }
  }

  /** Reading the sections of one page, list items first, appending each code once. */
  method ScanSections(listItems: seq<string>, details: seq<string>) returns (loco: seq<string>)
    ensures loco == PageLanguages(listItems, details)
  {
    loco := [];
    for i := 0 to |listItems|
      invariant loco == Scan([], listItems[..i], false)
    {
      var text := listItems[i];
      if HasMarker(text, false) && MentionsRussian(text) && Russian !in loco {
        loco := loco + [Russian];
      }
      if HasMarker(text, false) && MentionsEnglish(text) && English !in loco {
        loco := loco + [English];
      }
      assert listItems[..i + 1][..i] == listItems[..i];
    }
    assert listItems[..|listItems|] == listItems;
    var start := loco;
    for i := 0 to |details|
      invariant loco == Scan(start, details[..i], true)
    {
      var text := details[i];
      if HasMarker(text, true) && MentionsRussian(text) && Russian !in loco {
        loco := loco + [Russian];
      }
      if HasMarker(text, true) && MentionsEnglish(text) && English !in loco {
        loco := loco + [English];
      }
      assert details[..i + 1][..i] == details[..i];
    }
    assert details[..|details|] == details;
  }

  /** `check_game_localization`: try the requests in turn; the first that answers decides. */
  method CheckGameLocalization(attempts: seq<Attempt>) returns (r: Option<seq<string>>)
    ensures r == LocalizationResult(attempts)
  {
    for i := 0 to |attempts|
      invariant forall k :: 0 <= k < i ==> attempts[k].Raised?
    {
      var attempt := attempts[i];
      if attempt.Responded? {
        var loco: seq<string> := [];
        if attempt.statusCode == 200 {
          loco := ScanSections(attempt.listItems, attempt.details);
        }
        FirstResponseDecides(attempts, i);
        return Some(loco);
      }
    }
    r := None;
  }

  // ---------------------------------------------------------------------------
  // The pass over the release table
  // ---------------------------------------------------------------------------

  /** `sorted(loco)` for a list of known codes: `ENGLISH` before `RUSSIAN`. */
  function SortCodes(loco: seq<string>): (r: seq<string>)
    ensures forall c :: c in r <==> c in loco && (c == English || c == Russian)
    ensures ValidCodes(r)
    ensures forall i, j :: 0 <= i < j < |r| ==> r[i] == English && r[j] == Russian
  {
    (if English in loco then [English] else []) + (if Russian in loco then [Russian] else [])
  }

  /** In a list without duplicates an element occurs once or not at all. */
  lemma OccurrencesNoDuplicates(s: seq<string>, c: string)
    requires NoDuplicates(s)
    ensures multiset(s)[c] == if c in s then 1 else 0
  {
    if c in s {
      var i :| 0 <= i < |s| && s[i] == c;
      OccursOnce(s, i);
    }
  }

  /** Sorting a duplicate-free list of known codes keeps exactly its codes. */
  lemma SortCodesPermutes(loco: seq<string>)
    requires ValidCodes(loco)
    ensures multiset(SortCodes(loco)) == multiset(loco)
    ensures SortCodes(loco) == [] <==> loco == []
  {
    var sorted := SortCodes(loco);
    forall c ensures multiset(sorted)[c] == multiset(loco)[c] {
      OccurrencesNoDuplicates(sorted, c);
      OccurrencesNoDuplicates(loco, c);
    }
    assert multiset(sorted) == multiset(loco);
    if loco != [] {
      assert loco[0] in sorted;
    }
  }

  /** What one checked game comes to. */
  datatype StepOutcome = Updated(languages: string) | Unchanged | Failed | Crash

  /** The step of the loop in `handle` with its control flow as written: `new_loco.sort()`
      runs before the `None` check, so a game whose every request raised stops the command.
      Only the crash is as written here: the codes are stored comma-separated, the corrected
      storage; the stored `str(new_loco)` is the subject of `UpdateAsWrittenReadsBackWrong`. */
  function OutcomeAsWritten(r: Option<seq<string>>): (o: StepOutcome)
    ensures o.Crash? <==> r.None?
    ensures o != Failed
  {
    match r
    case None => Crash
    case Some(loco) => if SortCodes(loco) != [] then Updated(Join(SortCodes(loco), ',')) else Unchanged
  }

  /** The step as evidently intended: a game whose every request raised counts as failed;
      a non-empty list of codes is stored sorted, comma-separated; an empty one changes nothing. */
  function Outcome(r: Option<seq<string>>): (o: StepOutcome)
    ensures o == Failed <==> r.None?
    ensures !o.Crash?
    ensures r.Some? ==> o == OutcomeAsWritten(r)
  {
    match r
    case None => Failed
    case Some(loco) => OutcomeAsWritten(r)
  }

  /** A game whose only request raises stops the command as written, where the counters
      show that it was meant to be counted as failed. */
  lemma SortBeforeNoneCheck()
    ensures OutcomeAsWritten(LocalizationResult([Raised])) == Crash
    ensures Outcome(LocalizationResult([Raised])) == Failed
  {
  }

  /** A stored update lists the codes found, sorted, and reads back as that list. */
  lemma UpdateReadsBack(loco: seq<string>)
    requires ValidCodes(loco)
    ensures Outcome(Some(loco)).Updated? <==> loco != []
    ensures Outcome(Some(loco)).Updated? ==>
      CommaList(Outcome(Some(loco)).languages) == SortCodes(loco)
      && multiset(SortCodes(loco)) == multiset(loco)
  {
    SortCodesPermutes(loco);
    var sorted := SortCodes(loco);
    if sorted != [] {
      assert forall k :: 0 <= k < |sorted| ==> sorted[k] == English || sorted[k] == Russian;
      CommaListJoin(sorted);
    }
  }

  /** As written, `game.languages = new_loco` assigns the list itself to the text field, which
      holds `str(new_loco)`; that does not read back as the codes found. */
  lemma UpdateAsWrittenReadsBackWrong(loco: seq<string>)
    requires ValidCodes(loco) && loco != []
    ensures CommaList(ListRepr(SortCodes(loco))) != SortCodes(loco)
  {
    SortCodesPermutes(loco);
    var sorted := SortCodes(loco);
    assert forall k :: 0 <= k < |sorted| ==> sorted[k] == English || sorted[k] == Russian;
    StoredListReadsBackWrong(sorted);
  }

  /** Which games `handle` checks: the one with the given id when an id other than 0 is
      given, all of them with `force_all`, otherwise those whose languages include `UNKNOW`. */
  predicate Selected(g: GameRelease, gameId: Option<int>, forceAll: bool) {
    if gameId.Some? && gameId.value != 0 then g.id == gameId.value
    else forceAll || "UNKNOW" in LanguagesList(g)
  }

  /** Positions of the selected games, in table order. */
  function SelectedIndices(games: seq<GameRelease>, gameId: Option<int>, forceAll: bool): (r: seq<nat>)
    ensures forall k :: 0 <= k < |r| ==> r[k] < |games| && Selected(games[r[k]], gameId, forceAll)
    ensures forall i :: 0 <= i < |games| && Selected(games[i], gameId, forceAll) ==> i in r
    ensures forall a, b :: 0 <= a < b < |r| ==> r[a] < r[b]
  {
    if games == [] then []
    else
      var init := SelectedIndices(games[..|games| - 1], gameId, forceAll);
      assert forall i :: 0 <= i < |games| - 1 ==> games[..|games| - 1][i] == games[i];
      if Selected(games[|games| - 1], gameId, forceAll) then init + [|games| - 1] else init
  }

  /** The outcome of checking game `g` against the network. */
  function CheckOutcome(g: GameRelease, fetch: string -> seq<Attempt>): StepOutcome {
    Outcome(LocalizationResult(fetch(DekuDealsUrl(g.title))))
  }

  /** A game after its step: only an update changes it, and only its languages. */
  function ApplyOutcome(g: GameRelease, o: StepOutcome): (h: GameRelease)
    ensures o.Updated? ==> h == g.(languages := o.languages)
    ensures !o.Updated? ==> h == g
  {
    if o.Updated? then g.(languages := o.languages) else g
  }

  /** The table after `handle`. */
  function HandledTable(games: seq<GameRelease>, gameId: Option<int>, forceAll: bool,
                        fetch: string -> seq<Attempt>): (r: seq<GameRelease>)
    ensures |r| == |games|
    ensures forall i :: 0 <= i < |games| && !Selected(games[i], gameId, forceAll) ==> r[i] == games[i]
    ensures forall i :: 0 <= i < |games| && Selected(games[i], gameId, forceAll) ==>
      r[i] == ApplyOutcome(games[i], CheckOutcome(games[i], fetch))
  {
    seq(|games|, i requires 0 <= i < |games| =>
      if Selected(games[i], gameId, forceAll) then ApplyOutcome(games[i], CheckOutcome(games[i], fetch)) else games[i])
  }

  /** How many of the games at `indices` come out with outcome kind `updated` (else failed). */
  function CountOutcomes(games: seq<GameRelease>, indices: seq<nat>, fetch: string -> seq<Attempt>, updated: bool): nat
    requires forall k :: 0 <= k < |indices| ==> indices[k] < |games|
  {
    if indices == [] then 0
    else
      var o := CheckOutcome(games[indices[|indices| - 1]], fetch);
      CountOutcomes(games, indices[..|indices| - 1], fetch, updated)
      + (if (updated && o.Updated?) || (!updated && o.Failed?) then 1 else 0)
  }

  lemma CountOutcomesStep(games: seq<GameRelease>, indices: seq<nat>, i: nat, fetch: string -> seq<Attempt>, updated: bool)
    requires forall k :: 0 <= k < |indices| ==> indices[k] < |games|
    requires i < |games|
    ensures CountOutcomes(games, indices + [i], fetch, updated) == CountOutcomes(games, indices, fetch, updated)
      + (if (updated && CheckOutcome(games[i], fetch).Updated?) || (!updated && CheckOutcome(games[i], fetch).Failed?) then 1 else 0)
  {
    assert (indices + [i])[..|indices|] == indices;
  }

  lemma TakeNext(s: seq<nat>, n: nat)
    requires n < |s|
    ensures s[..n + 1] == s[..n] + [s[n]] && (s[..n] + [s[n]])[..n] == s[..n]
  {
  }

  /** What the command reports. */
  datatype Report = NothingToCheck | Finished(total: nat, updated: nat, failed: nat)

  /** The report of `handle`. */
  function HandleReport(games: seq<GameRelease>, gameId: Option<int>, forceAll: bool,
                        fetch: string -> seq<Attempt>): Report {
    var indices := SelectedIndices(games, gameId, forceAll);
    if indices == [] then NothingToCheck
    else Finished(|indices|, CountOutcomes(games, indices, fetch, true), CountOutcomes(games, indices, fetch, false))
  }

  lemma {:induction false} CountOutcomesBound(games: seq<GameRelease>, indices: seq<nat>, fetch: string -> seq<Attempt>)
    requires forall k :: 0 <= k < |indices| ==> indices[k] < |games|
    ensures CountOutcomes(games, indices, fetch, true) + CountOutcomes(games, indices, fetch, false) <= |indices|
    decreases |indices|
  {
    if indices != [] {
      CountOutcomesBound(games, indices[..|indices| - 1], fetch);
    }
  }

  /** The report counts every selected game once, and no game both as updated and as
      failed; it says there is nothing to check exactly when no game is selected. */
  lemma HandleReportSpec(games: seq<GameRelease>, gameId: Option<int>, forceAll: bool, fetch: string -> seq<Attempt>)
    ensures HandleReport(games, gameId, forceAll, fetch) == NothingToCheck <==>
      forall i :: 0 <= i < |games| ==> !Selected(games[i], gameId, forceAll)
    ensures HandleReport(games, gameId, forceAll, fetch).Finished? ==>
      var r := HandleReport(games, gameId, forceAll, fetch);
      r.total == |SelectedIndices(games, gameId, forceAll)| && r.updated + r.failed <= r.total
  {
    var indices := SelectedIndices(games, gameId, forceAll);
    if indices != [] {
      assert Selected(games[indices[0]], gameId, forceAll);
      CountOutcomesBound(games, indices, fetch);
    }
  }

  /** After an update the game's languages read back as the codes found, so it no longer
      lists `UNKNOW` and a default pass does not select it again. */
  lemma UpdatedGameNotReselected(g: GameRelease, fetch: string -> seq<Attempt>, gameId: Option<int>)
    requires CheckOutcome(g, fetch).Updated?
    requires gameId.None? || gameId.value == 0
    ensures !Selected(ApplyOutcome(g, CheckOutcome(g, fetch)), gameId, false)
  {
    var attempts := fetch(DekuDealsUrl(g.title));
    ResultCodesValid(attempts);
    UpdatedCodesNotReselected(g, LocalizationResult(attempts).value, gameId);
  }

  /** Storing a valid list of codes takes a game out of the default selection. */
  lemma UpdatedCodesNotReselected(g: GameRelease, loco: seq<string>, gameId: Option<int>)
    requires ValidCodes(loco) && Outcome(Some(loco)).Updated?
    requires gameId.None? || gameId.value == 0
    ensures !Selected(ApplyOutcome(g, Outcome(Some(loco))), gameId, false)
  {
    UpdateReadsBack(loco);
    assert "UNKNOW" !in SortCodes(loco);
  }

  /** Every list `check_game_localization` returns holds known codes without repetition. */
  lemma {:induction false} ResultCodesValid(attempts: seq<Attempt>)
    ensures LocalizationResult(attempts).Some? ==> ValidCodes(LocalizationResult(attempts).value)
    decreases |attempts|
  {
    if attempts != [] {
      if attempts[0].Raised? {
        ResultCodesValid(attempts[1..]);
      } else {
        PageLanguagesSpec(attempts[0].listItems, attempts[0].details);
      }
    }
  }

  /** The loop of the default mode of `handle` (and the queryset filters of the other two):
      the positions of the games to check, in table order. */
  method SelectGames(games: array<GameRelease>, gameId: Option<int>, forceAll: bool) returns (selected: seq<nat>)
    ensures selected == SelectedIndices(games[..], gameId, forceAll)
  {
    selected := [];
    for i := 0 to games.Length
      invariant selected == SelectedIndices(games[..i], gameId, forceAll)
    {
      assert games[..i + 1][..i] == games[..i];
      if Selected(games[i], gameId, forceAll) {
        selected := selected + [i];
      }
    }
    assert games[..games.Length] == games[..];
  }

  /** One turn of the loop of `handle`: check game `i`, and store the sorted codes when
      there are any. */
  method CheckGame(games: array<GameRelease>, i: nat, fetch: string -> seq<Attempt>) returns (outcome: StepOutcome)
    requires i < games.Length
    modifies games
    ensures outcome == CheckOutcome(old(games[i]), fetch)
    ensures games[..] == old(games[..])[i := ApplyOutcome(old(games[i]), outcome)]
  {
    var game := games[i];
    var newLoco := CheckGameLocalization(fetch(DekuDealsUrl(game.title)));
    if newLoco.Some? {
      var sorted := SortCodes(newLoco.value);
      if sorted != [] {
        games[i] := game.(languages := Join(sorted, ','));
        outcome := Updated(Join(sorted, ','));
      } else {
        outcome := Unchanged;
      }
    } else {
      outcome := Failed;
    }
  }

  /** The table part way through `handle`: the games at the positions in `done` are as
      `handle` leaves them, all others as they were. */
  predicate HandledUpTo(current: seq<GameRelease>, table: seq<GameRelease>, handled: seq<GameRelease>, done: seq<nat>) {
    && |current| == |table| == |handled|
    && forall i :: 0 <= i < |current| ==> current[i] == if i in done then handled[i] else table[i]
  }

  /** Handling one more position keeps the table part way through `handle`. */
  lemma HandledStep(current: seq<GameRelease>, table: seq<GameRelease>, handled: seq<GameRelease>,
                    done: seq<nat>, i: nat)
    requires HandledUpTo(current, table, handled, done)
    requires i < |current| && i !in done
    ensures HandledUpTo(current[i := handled[i]], table, handled, done + [i])
  {
  }

  /** Once every selected position is handled, the table is the handled table. */
  lemma HandledAll(current: seq<GameRelease>, table: seq<GameRelease>, gameId: Option<int>, forceAll: bool,
                   fetch: string -> seq<Attempt>)
    requires HandledUpTo(current, table, HandledTable(table, gameId, forceAll, fetch), SelectedIndices(table, gameId, forceAll))
    ensures current == HandledTable(table, gameId, forceAll, fetch)
  {
    var handled := HandledTable(table, gameId, forceAll, fetch);
    forall i | 0 <= i < |table| ensures current[i] == handled[i] {
      if i !in SelectedIndices(table, gameId, forceAll) {
        assert !Selected(table[i], gameId, forceAll);
      }
    }
  }

  /** The positions increase, lie inside the table, and `handled` holds at each of them
      the game as its check leaves it. */
  predicate HandlesAt(table: seq<GameRelease>, handled: seq<GameRelease>, selected: seq<nat>,
                      fetch: string -> seq<Attempt>) {
    && |handled| == |table|
    && (forall k :: 0 <= k < |selected| ==> selected[k] < |table|)
    && (forall a, b :: 0 <= a < b < |selected| ==> selected[a] < selected[b])
    && forall k :: 0 <= k < |selected| ==>
         (selected[k] < |table| && handled[selected[k]] == ApplyOutcome(table[selected[k]], CheckOutcome(table[selected[k]], fetch)))
  }

  /** One turn of the loop of `handle`, on values: game `selected[n]` is still unchanged, and
      checking it moves the table and both counts one position on. */
  lemma CheckAllStep(current: seq<GameRelease>, table: seq<GameRelease>, handled: seq<GameRelease>,
                     selected: seq<nat>, n: nat, fetch: string -> seq<Attempt>)
    requires HandlesAt(table, handled, selected, fetch) && n < |selected|
    requires HandledUpTo(current, table, handled, selected[..n])
    ensures selected[n] < |current| && current[selected[n]] == table[selected[n]]
    ensures var i := selected[n]; var o := CheckOutcome(table[i], fetch);
      && HandledUpTo(current[i := ApplyOutcome(table[i], o)], table, handled, selected[..n + 1])
      && CountOutcomes(table, selected[..n + 1], fetch, true) == CountOutcomes(table, selected[..n], fetch, true) + (if o.Updated? then 1 else 0)
      && CountOutcomes(table, selected[..n + 1], fetch, false) == CountOutcomes(table, selected[..n], fetch, false) + (if o.Failed? then 1 else 0)
  {
    var i := selected[n];
    var done := selected[..n];
    TakeNext(selected, n);
    assert i !in done by {
      assert forall k :: 0 <= k < n ==> done[k] == selected[k] < i;
    }
    assert forall k :: 0 <= k < |done| ==> done[k] < |table| by {
      assert forall k :: 0 <= k < |done| ==> done[k] == selected[k];
    }
    CountOutcomesStep(table, done, i, fetch, true);
    CountOutcomesStep(table, done, i, fetch, false);
    HandledStep(current, table, handled, done, i);
  }

  /** The loop of `handle` over the selected positions, in increasing order: check each
      game, store what is found and count the updates and the failures. */
  method CheckAll(games: array<GameRelease>, selected: seq<nat>, fetch: string -> seq<Attempt>,
                  ghost handled: seq<GameRelease>)
    returns (updatedCount: nat, failedCount: nat)
    requires HandlesAt(games[..], handled, selected, fetch)
    modifies games
    ensures HandledUpTo(games[..], old(games[..]), handled, selected)
    ensures updatedCount == CountOutcomes(old(games[..]), selected, fetch, true)
    ensures failedCount == CountOutcomes(old(games[..]), selected, fetch, false)
  {
    ghost var table := games[..];
    updatedCount, failedCount := 0, 0;
    assert HandledUpTo(games[..], table, handled, selected[..0]);
    for n := 0 to |selected|
      invariant HandledUpTo(games[..], table, handled, selected[..n])
      invariant updatedCount == CountOutcomes(table, selected[..n], fetch, true)
      invariant failedCount == CountOutcomes(table, selected[..n], fetch, false)
    {
      CheckAllStep(games[..], table, handled, selected, n, fetch);
      var outcome := CheckGame(games, selected[n], fetch);
      if outcome.Updated? {
        updatedCount := updatedCount + 1;
      } else if outcome.Failed? {
        failedCount := failedCount + 1;
      }
    }
    assert selected[..|selected|] == selected;
  }

  /** `handle`, with the `None` check ahead of the sort: pick the games, stop when there
      are none, otherwise check each in table order, store what is found and count. */
  method Handle(games: array<GameRelease>, gameId: Option<int>, forceAll: bool, fetch: string -> seq<Attempt>)
    returns (report: Report)
    modifies games
    ensures games[..] == HandledTable(old(games[..]), gameId, forceAll, fetch)
    ensures report == HandleReport(old(games[..]), gameId, forceAll, fetch)
  {
    ghost var table := games[..];
    ghost var handled := HandledTable(table, gameId, forceAll, fetch);
    var selected := SelectGames(games, gameId, forceAll);
    if selected == [] {
      assert HandledUpTo(table, table, handled, selected);
      HandledAll(table, table, gameId, forceAll, fetch);
      return NothingToCheck;
    }
    var updatedCount, failedCount := CheckAll(games, selected, fetch, handled);
    HandledAll(games[..], table, gameId, forceAll, fetch);
    report := Finished(|selected|, updatedCount, failedCount);
  }
}

=== FILE: ign_parser.dfy ===
/**
 * The IGN release parser after the browser has done its work: the candidate
 * elements each selector finds are values (their text, `href` and `title`
 * attributes), and the parser turns them into game entries, keeps the valid
 * ones, and adds to the release table the games whose titles it does not
 * already hold, case-insensitively.
 */
module IgnParser {
  import opened Wrappers
  import opened Text
  import opened ReleaseModels

  /** What the parser reads from one page element. */
  datatype Element = Element(text: string, href: Option<string>, titleAttr: Option<string>)

  /** One parsed entry (`game_data`). */
  datatype GameData = GameData(title: string, url: Option<string>, releaseDate: int, platforms: seq<string>)

  /** What a selector query came to: it raised, or it found these elements. */
  datatype SelectorResult = QueryFailed | Found(elements: seq<Element>)

  /** Elements looked at per selector. */
  const ElementLimit: nat := 10
  /** Days from today given to every parsed release. */
  const ReleaseOffset: int := 60
  const MinTitleLength: nat := 2
  const MaxTitleLength: nat := 200
  const ExcludeWords: seq<string> := ["ign", "game", "review", "news", "trailer", "video"]

  // ---------------------------------------------------------------------------
  // One element
  // ---------------------------------------------------------------------------

  /** The text up to the first line break. */
  function FirstLine(s: string): (r: string)
    ensures |r| <= |s| && r == s[..|r|] && '\n' !in r
    ensures |r| < |s| ==> s[|r|] == '\n'
  {
    if s == [] || s[0] == '\n' then [] else [s[0]] + FirstLine(s[1..])
  }

  /** `s.split('\n')[0] if '\n' in s else s` is the first line. */
  lemma {:induction false} FirstLineSplit(s: string)
    ensures FirstLine(s) == Split(s, '\n')[0]
    ensures '\n' !in s ==> FirstLine(s) == s
    decreases |s|
  {
    if s != [] && s[0] != '\n' {
      FirstLineSplit(s[1..]);
      assert s == [s[0]] + s[1..];
    }
  }

  /** The entry `_parse_game_element` builds, or `None` when the stripped text has fewer
      than two characters. */
  function ParsedElement(e: Element, today: int): (r: Option<GameData>)
    ensures r.None? <==> |Strip(e.text)| < MinTitleLength
    ensures r.Some? ==> r.value.platforms == ["PS5"] && r.value.releaseDate == today + ReleaseOffset
    ensures r.Some? ==> r.value.url == if e.href.Some? && e.href.value != "" then e.href else None
    ensures r.Some? ==> var first := FirstLine(Strip(e.text));
      if e.titleAttr.Some? && |e.titleAttr.value| > |first| then r.value.title == e.titleAttr.value
      else r.value.title == first
  {
    var text := Strip(e.text);
    if |text| < MinTitleLength then None
    else
      var first := FirstLine(text);
      var url := if e.href.Some? && e.href.value != "" then e.href else None;
      var title := if e.titleAttr.Some? && |e.titleAttr.value| > |first| then e.titleAttr.value else first;
      Some(GameData(title, url, today + ReleaseOffset, ["PS5"]))
  }

  /** A parsed title is never empty: the first line of a stripped text starts with a
      character that is not whitespace, and the title attribute replaces it only when longer. */
  lemma ParsedTitleNonEmpty(e: Element, today: int)
    requires ParsedElement(e, today).Some?
    ensures ParsedElement(e, today).value.title != ""
    ensures |ParsedElement(e, today).value.title| >= |FirstLine(Strip(e.text))| >= 1
  {
    var text := Strip(e.text);
    assert !IsSpace(text[0]);
    assert text[0] != '\n';
  }

  /** `_parse_game_element`: the entry is filled in one field after another. */
  method ParseGameElement(e: Element, today: int) returns (r: Option<GameData>)
    ensures r == ParsedElement(e, today)
  {
    var text := Strip(e.text);
    if text == "" || |text| < MinTitleLength {
      return None;
    }
    var title := if '\n' in text then Split(text, '\n')[0] else text;
    FirstLineSplit(text);
    var url: Option<string> := None;
    var href := e.href;
    if href.Some? && href.value != "" {
      url := href;
    }
    var releaseDate := today + ReleaseOffset;
    var platforms := ["PS5"];
    var titleAttr := e.titleAttr;
    if titleAttr.Some? && titleAttr.value != "" && |titleAttr.value| > |title| {
      title := titleAttr.value;
    }
    r := Some(GameData(title, url, releaseDate, platforms));
  }

  /** `_is_valid_game`: a title of 2 to 200 characters whose lower-case form contains none
      of the excluded words. */
  predicate IsValidGame(title: string) {
    title != ""
    && MinTitleLength <= |title| <= MaxTitleLength
    && forall k :: 0 <= k < |ExcludeWords| ==> !Contains(LowerStr(title), ExcludeWords[k])
  }

  /** Lower-casing a lower-cased string changes nothing. */
  lemma LowerStrIdempotent(s: string)
    ensures LowerStr(LowerStr(s)) == LowerStr(s)
  {
    forall i | 0 <= i < |s| ensures LowerStr(LowerStr(s))[i] == LowerStr(s)[i] {
      LowerLower(s[i]);
    }
  }

  /** Validity does not depend on letter case: a title and its lower-case form are both
      valid or both rejected. */
  lemma IsValidGameIgnoresCase(title: string)
    ensures IsValidGame(LowerStr(title)) == IsValidGame(title)
  {
    LowerStrIdempotent(title);
  }

  /** `IGN` in any letter case makes a title invalid. */
  lemma RejectsIgnAnyCase(a: string, b: string)
    ensures !IsValidGame(a + "IGN" + b) && !IsValidGame(a + "Ign" + b)
  {
    var t1, t2 := a + "IGN" + b, a + "Ign" + b;
    assert LowerStr(t1)[|a|..][..3] == "ign";
    assert LowerStr(t2)[|a|..][..3] == "ign";
    assert ExcludeWords[0] == "ign";
  }

  // ---------------------------------------------------------------------------
  // The selector passes
  // ---------------------------------------------------------------------------

  /** The valid entries among `es`, in their order. */
  function ValidEntries(es: seq<Element>, today: int): (r: seq<GameData>)
    ensures |r| <= |es|
  {
    if es == [] then []
    else
      var init := ValidEntries(es[..|es| - 1], today);
      var parsed := ParsedElement(es[|es| - 1], today);
      if parsed.Some? && IsValidGame(parsed.value.title) then init + [parsed.value] else init
  }

  /** An entry is kept exactly when it parses and its title is valid: every kept entry has
      a valid title, the `PS5` platform and a date `ReleaseOffset` days ahead. */
  predicate KeptEntries(r: seq<GameData>, today: int) {
    forall k :: 0 <= k < |r| ==>
      (IsValidGame(r[k].title) && r[k].platforms == ["PS5"] && r[k].releaseDate == today + ReleaseOffset)
  }

  lemma {:induction false} ValidEntriesKept(es: seq<Element>, today: int)
    ensures KeptEntries(ValidEntries(es, today), today)
    decreases |es|
  {
    if es != [] {
      var init := ValidEntries(es[..|es| - 1], today);
      var parsed := ParsedElement(es[|es| - 1], today);
      var r := ValidEntries(es, today);
      ValidEntriesKept(es[..|es| - 1], today);
      if parsed.Some? && IsValidGame(parsed.value.title) {
        assert r == init + [parsed.value];
        forall k | 0 <= k < |r|
          ensures IsValidGame(r[k].title) && r[k].platforms == ["PS5"] && r[k].releaseDate == today + ReleaseOffset
        {
          if k < |init| {
            assert r[k] == init[k];
          } else {
            assert r[k] == parsed.value;
          }
        }
      } else {
        assert r == init;
      }
    }
  }

  /** Looking at one more element: it is kept when it parses to a valid entry. */
  lemma ValidEntriesNext(es: seq<Element>, today: int, i: nat)
    requires i < |es|
    ensures var p := ParsedElement(es[i], today);
      ValidEntries(es[..i + 1], today) ==
        if p.Some? && IsValidGame(p.value.title) then ValidEntries(es[..i], today) + [p.value]
        else ValidEntries(es[..i], today)
  {
    assert es[..i + 1][..i] == es[..i];
  }

  /** At most the first `ElementLimit` elements. */
  function Head(es: seq<Element>): (r: seq<Element>)
    ensures |r| <= ElementLimit && |r| <= |es| && r == es[..|r|]
    ensures |es| >= ElementLimit ==> |r| == ElementLimit
    ensures |es| < ElementLimit ==> r == es
  {
    if |es| <= ElementLimit then es else es[..ElementLimit]
  }

  predicate FoundSome(s: SelectorResult) {
    s.Found? && s.elements != []
  }

  /** One pass over a list of selectors: the first selector that finds any elements
      decides, and only its first ten elements are looked at. */
  function PassEntries(results: seq<SelectorResult>, today: int): (r: seq<GameData>)
    ensures |r| <= ElementLimit
    ensures (forall j :: 0 <= j < |results| ==> !FoundSome(results[j])) ==> r == []
  {
    if results == [] then []
    else if FoundSome(results[0]) then ValidEntries(Head(results[0].elements), today)
    else
      var r := PassEntries(results[1..], today);
      assert forall j :: 1 <= j < |results| ==> results[1..][j - 1] == results[j];
      r
  }

  /** The selector that decides a pass is the first that finds anything. */
  lemma PassEntriesFirstFound(results: seq<SelectorResult>, today: int, i: nat)
    requires i < |results| && FoundSome(results[i])
    requires forall j :: 0 <= j < i ==> !FoundSome(results[j])
    ensures PassEntries(results, today) == ValidEntries(Head(results[i].elements), today)
  {
    if i > 0 {
      assert forall j :: 0 <= j < i - 1 ==> results[1..][j] == results[j + 1];
      PassEntriesFirstFound(results[1..], today, i - 1);
    }
  }

  /** `_parse_games_from_page`: the XPath selectors, then the CSS selectors only when the
      XPath pass kept nothing. */
  function PageEntries(xpath: seq<SelectorResult>, css: seq<SelectorResult>, today: int): (r: seq<GameData>)
    ensures |r| <= ElementLimit
    ensures PassEntries(xpath, today) != [] ==> r == PassEntries(xpath, today)
    ensures PassEntries(xpath, today) == [] ==> r == PassEntries(css, today)
  {
    var fromXpath := PassEntries(xpath, today);
    if fromXpath == [] then PassEntries(css, today) else fromXpath
  }

  /** Every entry of a pass, and so of a page, is kept by `_is_valid_game`. */
  lemma {:induction false} PassEntriesKept(results: seq<SelectorResult>, today: int)
    ensures KeptEntries(PassEntries(results, today), today)
    decreases |results|
  {
    if results != [] {
      if FoundSome(results[0]) {
        ValidEntriesKept(Head(results[0].elements), today);
      } else {
        PassEntriesKept(results[1..], today);
      }
    }
  }

  lemma PageEntriesKept(xpath: seq<SelectorResult>, css: seq<SelectorResult>, today: int)
    ensures KeptEntries(PageEntries(xpath, css, today), today)
  {
    PassEntriesKept(xpath, today);
    PassEntriesKept(css, today);
  }

  // ---------------------------------------------------------------------------
  // Saving
  // ---------------------------------------------------------------------------

  /** `title[:200]`. */
  function Truncate(title: string): (r: string)
    ensures |r| <= MaxTitleLength && |r| <= |title| && r == title[..|r|]
    ensures |title| <= MaxTitleLength ==> r == title
  {
    if |title| <= MaxTitleLength then title else title[..MaxTitleLength]
  }

  /** `title__iexact`: the titles agree ignoring letter case. */
  predicate SameTitle(a: string, b: string) {
    LowerStr(a) == LowerStr(b)
  }

  /** Some release of `table` has a title equal to `title` ignoring case. */
  predicate TitleTaken(table: seq<GameRelease>, title: string) {
    exists k :: 0 <= k < |table| && SameTitle(table[k].title, title)
  }

  /** The release the parser stores for an entry. */
  function NewRelease(g: GameData, id: ReleaseId): GameRelease {
    GameRelease(id, Truncate(g.title), g.releaseDate, false, Join(g.platforms, ','),
                Join(["ENGLISH", "RUSSIAN"], ','), [], Some(map[]))
  }

  /** A new release has the given id, the entry's title cut to the column width, the entry's
      date, no marketplaces, an empty marketplace map, is unpublished, and lists English and
      Russian as its languages. */
  lemma NewReleaseSpec(g: GameData, id: ReleaseId)
    ensures var h := NewRelease(g, id);
      && h.id == id && h.title == Truncate(g.title) && h.releaseDate == g.releaseDate
      && !h.isPublished && h.marketplaces == [] && MarketplacePlatformsDict(h) == map[]
      && LanguagesList(h) == ["ENGLISH", "RUSSIAN"]
  {
    var languages := ["ENGLISH", "RUSSIAN"];
    assert forall k :: 0 <= k < |languages| ==> ',' !in languages[k] && IsStripped(languages[k]);
    CommaListJoin(languages);
  }

  /** The release `_save_to_database` builds as written: the platform and language lists are
      assigned to text fields, which hold them as `str(list)`. */
  function NewReleaseAsWritten(g: GameData, id: ReleaseId): GameRelease {
    NewRelease(g, id).(platforms := ListRepr(g.platforms), languages := ListRepr(["ENGLISH", "RUSSIAN"]))
  }

  /** As written, a new release's languages do not read back as English and Russian, and a
      parsed entry's `PS5` platform reads back with the brackets and quotes around it. */
  lemma ListFieldsAsWritten(g: GameData, id: ReleaseId)
    ensures LanguagesList(NewReleaseAsWritten(g, id))[0] == "['" + "ENGLISH" + "'"
    ensures LanguagesList(NewReleaseAsWritten(g, id)) != ["ENGLISH", "RUSSIAN"]
    ensures g.platforms == ["PS5"] ==> PlatformsList(NewReleaseAsWritten(g, id)) == ["['" + "PS5" + "']"]
  {
    var h := NewReleaseAsWritten(g, id);
    var languages := ["ENGLISH", "RUSSIAN"];
    assert h.languages == ListRepr(languages);
    StoredListReadsBackWrong(languages);
    if g.platforms == ["PS5"] {
      StoredListReadsBackWrong(["PS5"]);
    }
  }

  /** The releases `_save_to_database` creates for `games`, given the table it starts from
      and the first free id: an entry is skipped when the table or an earlier new release
      already has its title ignoring case. */
  function Saved(games: seq<GameData>, table: seq<GameRelease>, nextId: ReleaseId): (r: seq<GameRelease>)
    ensures |r| <= |games|
  {
    if games == [] then []
    else
      var prev := Saved(games[..|games| - 1], table, nextId);
      var g := games[|games| - 1];
      if TitleTaken(table + prev, g.title) then prev else prev + [NewRelease(g, nextId + |prev|)]
  }

  /** The new releases get consecutive ids from `nextId` on, in the order they are saved. */
  lemma {:induction false} SavedIds(games: seq<GameData>, table: seq<GameRelease>, nextId: ReleaseId)
    ensures forall k :: 0 <= k < |Saved(games, table, nextId)| ==> Saved(games, table, nextId)[k].id == nextId + k
    decreases |games|
  {
    if games != [] {
      SavedIds(games[..|games| - 1], table, nextId);
    }
  }

  /** Saving one more entry: it is appended unless its title is taken. */
  lemma SavedNext(games: seq<GameData>, table: seq<GameRelease>, nextId: ReleaseId, i: nat)
    requires i < |games|
    ensures var prev := Saved(games[..i], table, nextId);
      Saved(games[..i + 1], table, nextId) ==
        if TitleTaken(table + prev, games[i].title) then prev else prev + [NewRelease(games[i], nextId + |prev|)]
  {
    var g := games[..i + 1];
    assert g[..|g| - 1] == games[..i];
    assert g[|g| - 1] == games[i];
  }

  /** Saving a longer batch only adds at the end: what the first `i` entries create is a
      prefix of what the whole batch creates, so new releases keep the input order. */
  lemma {:induction false} SavedPrefix(games: seq<GameData>, table: seq<GameRelease>, nextId: ReleaseId, i: nat)
    requires i <= |games|
    ensures |Saved(games[..i], table, nextId)| <= |Saved(games, table, nextId)|
    ensures Saved(games[..i], table, nextId) == Saved(games, table, nextId)[..|Saved(games[..i], table, nextId)|]
    decreases |games| - i
  {
    if i < |games| {
      SavedPrefix(games, table, nextId, i + 1);
      SavedNext(games, table, nextId, i);
      var a, b := Saved(games[..i], table, nextId), Saved(games[..i + 1], table, nextId);
      assert b[..|a|] == a;
    } else {
      assert games[..i] == games;
    }
  }

  /** No two releases share a title ignoring case. */
  predicate DistinctTitles(table: seq<GameRelease>) {
    forall i, j :: 0 <= i < j < |table| ==> !SameTitle(table[i].title, table[j].title)
  }

  /** When the entries' titles fit the column, every entry's title is in the table after
      saving (as a new release or an existing one), and a table with distinct titles keeps
      them distinct. */
  lemma {:induction false} SavedSpec(games: seq<GameData>, table: seq<GameRelease>, nextId: ReleaseId)
    requires forall k :: 0 <= k < |games| ==> |games[k].title| <= MaxTitleLength
    ensures forall k :: 0 <= k < |games| ==> TitleTaken(table + Saved(games, table, nextId), games[k].title)
    ensures DistinctTitles(table) ==> DistinctTitles(table + Saved(games, table, nextId))
    decreases |games|
  {
    if games != [] {
      var init := games[..|games| - 1];
      var g := games[|games| - 1];
      SavedSpec(init, table, nextId);
      var prev := Saved(init, table, nextId);
      var before := table + prev;
      var after := table + Saved(games, table, nextId);
      if TitleTaken(before, g.title) {
        assert after == before;
      } else {
        var h := NewRelease(g, nextId + |prev|);
        assert after == before + [h];
        assert after[|before|] == h;
        forall k | 0 <= k < |before| ensures after[k] == before[k] {
        }
        forall k | 0 <= k < |init| ensures TitleTaken(after, init[k].title) {
          var m :| 0 <= m < |before| && SameTitle(before[m].title, init[k].title);
          assert after[m] == before[m];
        }
        assert SameTitle(after[|before|].title, g.title);
        if DistinctTitles(table) {
          forall i, j | 0 <= i < j < |after| ensures !SameTitle(after[i].title, after[j].title) {
            if j == |before| {
              assert after[i] == before[i];
            } else {
              assert after[i] == before[i] && after[j] == before[j];
            }
          }
        }
      }
      forall k | 0 <= k < |games| ensures TitleTaken(after, games[k].title) {
        if k < |init| {
          assert games[k] == init[k];
        }
      }
    }
  }

  /** An entry is skipped only when its title is already taken, ignoring case. */
  lemma SavedSkips(games: seq<GameData>, table: seq<GameRelease>, nextId: ReleaseId)
    requires games != []
    ensures var prev := Saved(games[..|games| - 1], table, nextId);
      |Saved(games, table, nextId)| == |prev| <==> TitleTaken(table + prev, games[|games| - 1].title)
  {
  }

  /** The loop of `_save_to_database` over the entries, against the table it starts from:
      the new releases, in input order. */
  method SaveAll(games: seq<GameData>, table: seq<GameRelease>, nextId: ReleaseId) returns (newGames: seq<GameRelease>)
    ensures newGames == Saved(games, table, nextId)
  {
    newGames := [];
    for i := 0 to |games|
      invariant newGames == Saved(games[..i], table, nextId)
    {
      ghost var prev := newGames;
      if !TitleTaken(table + newGames, games[i].title) {
        newGames := newGames + [NewRelease(games[i], nextId + |newGames|)];
      }
      assert newGames == Saved(games[..i + 1], table, nextId) by {
        SavedNext(games, table, nextId, i);
      }
    }
    assert games[..|games|] == games;
  }

  /** The parsing loop itself: parse each element in turn and keep the valid entries. */
  method ParseEntries(es: seq<Element>, today: int) returns (games: seq<GameData>)
    ensures games == ValidEntries(es, today)
  {
    games := [];
    for i := 0 to |es|
      invariant games == ValidEntries(es[..i], today)
    {
      var gameData := ParseGameElement(es[i], today);
      ValidEntriesNext(es, today, i);
      if gameData.Some? && IsValidGame(gameData.value.title) {
        games := games + [gameData.value];
      }
    }
    assert es[..|es|] == es;
  }

  /** The parser with its counters and the release table it saves into. */
  class ReleaseParser {
    var pagesLoaded: nat
    var gamesParsed: nat
    var gamesSaved: nat
    var errors: nat
    var table: seq<GameRelease>
    var nextId: ReleaseId

    constructor(table: seq<GameRelease>, nextId: ReleaseId)
      ensures pagesLoaded == 0 && gamesParsed == 0 && gamesSaved == 0 && errors == 0
      ensures this.table == table && this.nextId == nextId
    {
      this.pagesLoaded, this.gamesParsed, this.gamesSaved, this.errors := 0, 0, 0, 0;
      this.table, this.nextId := table, nextId;
    }

    /** The loop over the first elements a selector found: parse each, keep the valid
        entries and count them. */
    method ParseElements(es: seq<Element>, today: int) returns (games: seq<GameData>)
      modifies this
      ensures games == ValidEntries(es, today)
      ensures gamesParsed == old(gamesParsed) + |games|
      ensures pagesLoaded == old(pagesLoaded) && gamesSaved == old(gamesSaved) && errors == old(errors)
      ensures table == old(table) && nextId == old(nextId)
    {
      games := ParseEntries(es, today);
      gamesParsed := gamesParsed + |games|;
    }

    /** One pass over a list of selectors: the first that finds any elements has its first
        ten elements parsed, and the pass stops there. */
    method ParsePass(results: seq<SelectorResult>, today: int) returns (games: seq<GameData>)
      modifies this
      ensures games == PassEntries(results, today)
      ensures gamesParsed == old(gamesParsed) + |games|
      ensures pagesLoaded == old(pagesLoaded) && gamesSaved == old(gamesSaved) && errors == old(errors)
      ensures table == old(table) && nextId == old(nextId)
    {
      games := [];
      for s := 0 to |results|
        invariant forall j :: 0 <= j < s ==> !FoundSome(results[j])
        invariant unchanged(this)
      {
        if FoundSome(results[s]) {
          games := ParseElements(Head(results[s].elements), today);
          PassEntriesFirstFound(results, today, s);
          return;
        }
      }
    }

    /** `_parse_games_from_page`. */
    method ParseGamesFromPage(xpath: seq<SelectorResult>, css: seq<SelectorResult>, today: int)
      returns (games: seq<GameData>)
      modifies this
      ensures games == PageEntries(xpath, css, today)
      ensures gamesParsed == old(gamesParsed) + |games|
      ensures pagesLoaded == old(pagesLoaded) && gamesSaved == old(gamesSaved) && errors == old(errors)
      ensures table == old(table) && nextId == old(nextId)
    {
      games := ParsePass(xpath, today);
      if games == [] {
        games := ParsePass(css, today);
      }
    }

    /** `_save_to_database`: each entry whose title is not yet in the table, ignoring case,
        becomes a new release appended to the table. */
    method SaveToDatabase(games: seq<GameData>) returns (newGames: seq<GameRelease>)
      modifies this
      ensures newGames == Saved(games, old(table), old(nextId))
      ensures table == old(table) + newGames && nextId == old(nextId) + |newGames|
      ensures pagesLoaded == old(pagesLoaded) && gamesParsed == old(gamesParsed)
      ensures gamesSaved == old(gamesSaved) && errors == old(errors)
    {
      newGames := SaveAll(games, table, nextId);
      table, nextId := table + newGames, nextId + |newGames|;
    }

    /** `parse_releases`: load the page (when that fails, count an error and save nothing),
        parse it, save the new games and record how many were saved. */
    method ParseReleases(pageLoads: bool, xpath: seq<SelectorResult>, css: seq<SelectorResult>, today: int)
      returns (newGames: seq<GameRelease>)
      modifies this
      ensures !pageLoads ==>
        && newGames == [] && errors == old(errors) + 1 && table == old(table)
        && pagesLoaded == old(pagesLoaded) && gamesParsed == old(gamesParsed)
        && gamesSaved == old(gamesSaved) && nextId == old(nextId)
      ensures pageLoads ==>
        && newGames == Saved(PageEntries(xpath, css, today), old(table), old(nextId))
        && table == old(table) + newGames
        && nextId == old(nextId) + |newGames|
        && gamesSaved == |newGames|
        && pagesLoaded == old(pagesLoaded) + 1
        && gamesParsed == old(gamesParsed) + |PageEntries(xpath, css, today)|
        && errors == old(errors)
    {
      if !pageLoads {
        errors := errors + 1;
        return [];
      }
      pagesLoaded := pagesLoaded + 1;
      var gamesData := ParseGamesFromPage(xpath, css, today);
      newGames := SaveToDatabase(gamesData);
      gamesSaved := |newGames|;
    }
  }
}

=== FILE: releases_models.dfy ===
/**
 * The `GameRelease` record of the release calendar and its read-only helpers:
 * the comma-separated platform and language fields read as lists, the
 * marketplace-to-platforms map with its `{}` default, and the release-date
 * tests against a given `today` (a day number).
 */
module ReleaseModels {
  import opened Wrappers
  import opened Text

  type ReleaseId = int

  /** One game release. `platforms` and `languages` are stored as comma-separated
      text; `marketplacePlatforms` is a JSON value that may be absent (`None`). */
  datatype GameRelease = GameRelease(
    id: ReleaseId,
    title: string,
    releaseDate: int,
    isPublished: bool,
    platforms: string,
    languages: string,
    marketplaces: seq<string>,
    marketplacePlatforms: Option<map<string, seq<string>>>)

  /** `[p.strip() for p in s.split(',')] if s else []`. */
  function CommaList(s: string): (r: seq<string>)
    ensures s == "" <==> r == []
    ensures s != "" ==> |r| == Count(s, ',') + 1
    ensures s != "" ==> |r| == |Split(s, ',')| && forall k :: 0 <= k < |r| ==> r[k] == Strip(Split(s, ',')[k])
    ensures forall k :: 0 <= k < |r| ==> IsStripped(r[k])
  {
    if s == "" then []
    else
      var pieces := Split(s, ',');
      SplitCount(s, ',');
      seq(|pieces|, k requires 0 <= k < |pieces| => Strip(pieces[k]))
  }

  /** Joining non-empty, comma-free, already stripped items with `,` and reading the
      field back as a list gives the items back. */
  lemma CommaListJoin(items: seq<string>)
    requires |items| >= 1
    requires forall k :: 0 <= k < |items| ==> items[k] != "" && ',' !in items[k] && IsStripped(items[k])
    ensures CommaList(Join(items, ',')) == items
  {
    var s := Join(items, ',');
    assert s != "" by {
      if |items| >= 2 {
        assert s == items[0] + [','] + Join(items[1..], ',');
      }
    }
    SplitJoin(items, ',');
    forall k | 0 <= k < |items| ensures CommaList(s)[k] == items[k] {
      StripStripped(items[k]);
    }
  }

  /** The items of a list as Python's `str` shows them: each in single quotes, separated
      by `, `. */
  function QuotedItems(items: seq<string>): string {
    if items == [] then ""
    else if |items| == 1 then "'" + items[0] + "'"
    else "'" + items[0] + "', " + QuotedItems(items[1..])
  }

  /** What a text field holds after a list of strings without quotes is assigned to it:
      `str(items)`, such as `['ENGLISH', 'RUSSIAN']`. */
  function ListRepr(items: seq<string>): (s: string)
    ensures |s| >= 2 && s[0] == '[' && s[|s| - 1] == ']'
  {
    "[" + QuotedItems(items) + "]"
  }

  /** A single stored item reads back with the brackets and quotes still around it. */
  lemma OneStoredItemReadsBack(x: string)
    requires ',' !in x
    ensures CommaList(ListRepr([x])) == ["['" + x + "']"]
  {
    var s := ListRepr([x]);
    assert s == "['" + x + "']";
    assert ',' !in s;
    SplitNoSep(s, ',');
    StripStripped(s);
  }

  /** Of several stored items, the first reads back with the opening bracket and quotes. */
  lemma FirstStoredItemReadsBack(items: seq<string>)
    requires |items| >= 2 && ',' !in items[0]
    ensures CommaList(ListRepr(items))[0] == "['" + items[0] + "'"
  {
    var s := ListRepr(items);
    var a := "['" + items[0] + "'";
    var b := " " + QuotedItems(items[1..]) + "]";
    assert s == a + [','] + b;
    assert ',' !in a;
    SplitAfter(a, ',', b);
    assert IsStripped(a);
    StripStripped(a);
  }

  /** A list stored in a text field as `str(items)` does not read back as the list: its first
      item comes back with the bracket and the quotes around it. */
  lemma StoredListReadsBackWrong(items: seq<string>)
    requires |items| >= 1 && forall k :: 0 <= k < |items| ==> ',' !in items[k]
    ensures |items| == 1 ==> CommaList(ListRepr(items)) == ["['" + items[0] + "']"]
    ensures |items| >= 2 ==> CommaList(ListRepr(items))[0] == "['" + items[0] + "'"
    ensures CommaList(ListRepr(items)) != items
  {
    var x := items[0];
    if |items| == 1 {
      assert items == [x];
      OneStoredItemReadsBack(x);
      assert |CommaList(ListRepr(items))[0]| == |x| + 4;
    } else {
      FirstStoredItemReadsBack(items);
      assert |CommaList(ListRepr(items))[0]| == |x| + 3;
    }
  }

  /** `get_platforms_list`. */
  function PlatformsList(g: GameRelease): (r: seq<string>)
    ensures r == [] <==> g.platforms == ""
    ensures g.platforms != "" ==> |r| == Count(g.platforms, ',') + 1
  {
    CommaList(g.platforms)
  }

  /** `get_languages_list`. */
  function LanguagesList(g: GameRelease): (r: seq<string>)
    ensures r == [] <==> g.languages == ""
    ensures g.languages != "" ==> |r| == Count(g.languages, ',') + 1
  {
    CommaList(g.languages)
  }

  /** The marketplace list the catalogue views read and write back. */
  function MarketplacesList(g: GameRelease): seq<string> {
    g.marketplaces
  }

  /** `get_marketplace_platforms_dict`: the stored map, or `{}` when it is absent or empty. */
  function MarketplacePlatformsDict(g: GameRelease): (d: map<string, seq<string>>)
    ensures g.marketplacePlatforms.None? ==> d == map[]
    ensures g.marketplacePlatforms.Some? ==> d == g.marketplacePlatforms.value
  {
    match g.marketplacePlatforms
    case None => map[]
    case Some(m) => if m == map[] then map[] else m
  }

  /** `is_released`: the release date is today or earlier. */
  predicate IsReleased(g: GameRelease, today: int) {
    g.releaseDate <= today
  }

  /** `days_until_release`: days from today to the release, 0 once it is out. */
  function DaysUntilRelease(g: GameRelease, today: int): (n: nat)
    ensures g.releaseDate > today ==> n == g.releaseDate - today
    ensures n == 0 <==> IsReleased(g, today)
  {
    var delta := g.releaseDate - today;
    if delta >= 0 then delta else 0
  }
}

=== FILE: releases_views.dfy ===
/**
 * The release catalogue views that change or position records: switching a
 * marketplace on or off for a release, publishing and unpublishing a release,
 * and choosing the page the release list opens on.
 *
 * The catalogue is a map from primary key to `GameRelease`; a view that looks a
 * release up with `get_object_or_404` answers `NotFound` for a missing key.
 */
module ReleaseViews {
  import opened Wrappers
  import opened ReleaseModels

  /** Position of the first occurrence of `x` in `s`. */
  function FirstIndex(s: seq<string>, x: string): (i: nat)
    requires x in s
    ensures i < |s| && s[i] == x && x !in s[..i]
  {
    if s[0] == x then 0
    else
      var i := 1 + FirstIndex(s[1..], x);
      assert s[..i] == [s[0]] + s[1..][..i - 1];
      i
  }

  /** `list.remove(x)` on a list that may or may not hold `x` (removal only when present). */
  function RemoveFirst(s: seq<string>, x: string): (r: seq<string>)
    ensures x !in s ==> r == s
    ensures |r| == if x in s then |s| - 1 else |s|
    ensures multiset(r) == multiset(s) - multiset{x}
  {
    if s == [] then []
    else
      assert s == [s[0]] + s[1..];
      if s[0] == x then s[1..]
      else [s[0]] + RemoveFirst(s[1..], x)
  }

  /** Removing `x` drops exactly its first occurrence, at `i`, and keeps everything else
      in order. */
  lemma {:induction false} RemoveFirstAt(s: seq<string>, x: string, i: nat)
    requires i < |s| && s[i] == x && x !in s[..i]
    ensures RemoveFirst(s, x) == s[..i] + s[i + 1..]
    decreases i
  {
    if i == 0 {
      assert s[..0] + s[1..] == s[1..];
    } else {
      var t := s[1..];
      assert s[0] != x by {
        assert s[..i][0] == s[0];
      }
      assert x !in t[..i - 1] by {
        assert t[..i - 1] == s[..i][1..];
      }
      calc {
        RemoveFirst(s, x);
        [s[0]] + RemoveFirst(t, x);
        { RemoveFirstAt(t, x, i - 1); }
        [s[0]] + (t[..i - 1] + t[i..]);
        { assert s[..i] == [s[0]] + t[..i - 1] && s[i + 1..] == t[i..]; }
        s[..i] + s[i + 1..];
      }
    }
  }

  /** The marketplace list after the toggle: remove the first occurrence when present,
      append at the end otherwise. */
  function ToggleList(s: seq<string>, x: string): (r: seq<string>)
    ensures x !in s ==> r == s + [x]
    ensures x in s ==> |r| == |s| - 1 && multiset(r) == multiset(s) - multiset{x}
    ensures x in r <==> x !in s || multiset(s)[x] > 1
  {
    if x in s then
      var r := RemoveFirst(s, x);
      assert x in r <==> x in multiset(r);
      r
    else s + [x]
  }

  /** The list holds no marketplace twice. */
  predicate NoDuplicates(s: seq<string>) {
    forall i, j :: 0 <= i < j < |s| ==> s[i] != s[j]
  }

  /** On a list without duplicates, the marketplace is selected after the toggle exactly
      when it was not before, and the list stays without duplicates. */
  lemma ToggleSelects(s: seq<string>, x: string)
    requires NoDuplicates(s)
    ensures x in ToggleList(s, x) <==> x !in s
    ensures NoDuplicates(ToggleList(s, x))
  {
    if x in s {
      var i := FirstIndex(s, x);
      OccursOnce(s, i);
      RemoveFirstAt(s, x, i);
      NoDuplicatesWithout(s, i);
    } else {
      assert forall j :: 0 <= j < |s| ==> (s + [x])[j] == s[j];
    }
  }

  /** Dropping one element keeps a list without duplicates. */
  lemma NoDuplicatesWithout(s: seq<string>, i: nat)
    requires NoDuplicates(s) && i < |s|
    ensures NoDuplicates(s[..i] + s[i + 1..])
  {
    var r := s[..i] + s[i + 1..];
    forall a, b | 0 <= a < b < |r| ensures r[a] != r[b] {
      var a', b' := if a < i then a else a + 1, if b < i then b else b + 1;
      assert r[a] == s[a'] && r[b] == s[b'];
    }
  }

  /** In a list without duplicates each element occurs once. */
  lemma OccursOnce(s: seq<string>, i: nat)
    requires NoDuplicates(s) && i < |s|
    ensures multiset(s)[s[i]] == 1
  {
    var x := s[i];
    assert s == s[..i] + [x] + s[i + 1..];
    assert x !in s[..i];
    assert x !in s[i + 1..];
    assert multiset(s) == multiset(s[..i]) + multiset{x} + multiset(s[i + 1..]);
  }

  /** Adding a marketplace that was absent and then toggling it again gives the list back. */
  lemma ToggleTwiceRestores(s: seq<string>, x: string)
    requires x !in s
    ensures ToggleList(ToggleList(s, x), x) == s
  {
    var t := s + [x];
    RemoveFirstAt(t, x, |s|);
    assert t[..|s|] == s;
  }

  /** Removing a marketplace keeps the others in their order, and appending keeps the
      whole old list in front. */
  lemma ToggleKeepsOthers(s: seq<string>, x: string)
    ensures x !in s ==> ToggleList(s, x)[..|s|] == s
    ensures x in s ==> exists i :: 0 <= i < |s| && s[i] == x && ToggleList(s, x) == s[..i] + s[i + 1..]
  {
    if x !in s {
      assert (s + [x])[..|s|] == s;
    } else {
      var i := FirstIndex(s, x);
      RemoveFirstAt(s, x, i);
      assert 0 <= i < |s| && s[i] == x && ToggleList(s, x) == s[..i] + s[i + 1..];
    }
  }

  /** The record after `toggle_marketplace` with a non-empty marketplace `x`. */
  function ToggleMarketplace(g: GameRelease, x: string): (h: GameRelease)
    ensures h.marketplaces == ToggleList(g.marketplaces, x)
    ensures x in g.marketplaces ==>
      && h.marketplacePlatforms.Some?
      && x !in h.marketplacePlatforms.value
      && forall k :: k != x ==>
           (k in h.marketplacePlatforms.value <==> k in MarketplacePlatformsDict(g))
           && (k in MarketplacePlatformsDict(g) ==> h.marketplacePlatforms.value[k] == MarketplacePlatformsDict(g)[k])
    ensures x !in g.marketplaces ==> h.marketplacePlatforms == g.marketplacePlatforms
    ensures h.id == g.id && h.title == g.title && h.releaseDate == g.releaseDate
    ensures h.isPublished == g.isPublished && h.platforms == g.platforms && h.languages == g.languages
  {
    var current := MarketplacesList(g);
    if x in current then
      var platforms := MarketplacePlatformsDict(g);
      var platforms' := if x in platforms then platforms - {x} else platforms;
      g.(marketplaces := RemoveFirst(current, x), marketplacePlatforms := Some(platforms'))
    else
      g.(marketplaces := current + [x])
  }

  /** The record after `toggle_publish`: only the published flag changes, to its negation. */
  function TogglePublish(g: GameRelease): (h: GameRelease)
    ensures h.isPublished != g.isPublished
    ensures h.(isPublished := g.isPublished) == g
  {
    g.(isPublished := !g.isPublished)
  }

  /** Publishing twice restores the record. */
  lemma TogglePublishTwice(g: GameRelease)
    ensures TogglePublish(TogglePublish(g)) == g
  {
  }

  /** What the two AJAX views answer. `NoResponse` is the view falling off its end
      (it returns `None`) when the requester is not a superuser. */
  datatype Response =
    | MarketplaceToggled(marketplace: string, isSelected: bool)
    | PublishToggled(isPublished: bool, gameId: ReleaseId)
    | InvalidRequest
    | NotFound
    | NoResponse

  /** The release table. */
  class Catalogue {
    var games: map<ReleaseId, GameRelease>

    constructor(games: map<ReleaseId, GameRelease>)
      ensures this.games == games
    {
      this.games := games;
    }

    /** `toggle_marketplace`: a POST with a non-empty marketplace toggles it on the
        release; anything else is refused and changes nothing. */
    method ToggleMarketplaceView(pk: ReleaseId, isPost: bool, marketplace: Option<string>)
      returns (response: Response)
      modifies this
      ensures !isPost ==> response == InvalidRequest && games == old(games)
      ensures isPost && pk !in old(games) ==> response == NotFound && games == old(games)
      ensures isPost && pk in old(games) && (marketplace.None? || marketplace.value == "") ==>
        response == InvalidRequest && games == old(games)
      ensures isPost && pk in old(games) && marketplace.Some? && marketplace.value != "" ==>
        && games == old(games)[pk := ToggleMarketplace(old(games)[pk], marketplace.value)]
        && response == MarketplaceToggled(marketplace.value, marketplace.value in MarketplacesList(games[pk]))
    {
      if !isPost {
        return InvalidRequest;
      }
      if pk !in games {
        return NotFound;
      }
      var game := games[pk];
      if marketplace.None? || marketplace.value == "" {
        return InvalidRequest;
      }
      var m := marketplace.value;
      var current := MarketplacesList(game);
      if m in current {
        current := RemoveFirst(current, m);
        var platforms := MarketplacePlatformsDict(game);
        if m in platforms {
          platforms := platforms - {m};
        }
        game := game.(marketplacePlatforms := Some(platforms));
      } else {
        current := current + [m];
      }
      game := game.(marketplaces := current);
      games := games[pk := game];
      response := MarketplaceToggled(m, m in MarketplacesList(games[pk]));
    }

    /** `toggle_publish`: a superuser flips the release's published flag. */
    method TogglePublishView(isSuperuser: bool, pk: ReleaseId) returns (response: Response)
      modifies this
      ensures !isSuperuser ==> response == NoResponse && games == old(games)
      ensures isSuperuser && pk !in old(games) ==> response == NotFound && games == old(games)
      ensures isSuperuser && pk in old(games) ==>
        && games == old(games)[pk := TogglePublish(old(games)[pk])]
        && response == PublishToggled(games[pk].isPublished, pk)
    {
      if !isSuperuser {
        return NoResponse;
      }
      if pk !in games {
        return NotFound;
      }
      var game := games[pk];
      game := game.(isPublished := !game.isPublished);
      games := games[pk := game];
      response := PublishToggled(game.isPublished, pk);
    }
  }

  /** Releases per page of the list. */
  const PageSize: nat := 20

  /** The page the list opens on: the request's own `page` value, or a page number
      worked out from the release dates. */
  datatype PageNumber = Requested(raw: Option<string>) | Computed(page: nat)

  /** `i` is the first position whose release is today or later. */
  predicate IsFirstUpcoming(releaseDates: seq<int>, today: int, i: int) {
    0 <= i < |releaseDates| && releaseDates[i] >= today
    && forall j :: 0 <= j < i ==> releaseDates[j] < today
  }

  /** The start page of `release_list`: with no `page` in the request, the page that holds
      the first release on or after today; otherwise (or when there is none) the request's
      value is passed on unchanged. */
  method StartPage(releaseDates: seq<int>, today: int, page: Option<string>) returns (p: PageNumber)
    ensures page.Some? && page.value != "" ==> p == Requested(page)
    ensures (page.None? || page.value == "") ==>
      (p.Computed? <==> exists i :: 0 <= i < |releaseDates| && releaseDates[i] >= today)
    ensures p.Requested? ==> p == Requested(page)
    ensures p.Computed? ==> exists i :: (IsFirstUpcoming(releaseDates, today, i)
      && p.page == i / PageSize + 1
      && (p.page - 1) * PageSize <= i < p.page * PageSize)
  {
    p := Requested(page);
    if page.None? || page.value == "" {
      var index := 0;
      while index < |releaseDates|
        invariant 0 <= index <= |releaseDates|
        invariant forall j :: 0 <= j < index ==> releaseDates[j] < today
        invariant p == Requested(page)
      {
        if releaseDates[index] >= today {
          p := Computed(index / PageSize + 1);
          assert IsFirstUpcoming(releaseDates, today, index);
          break;
        }
        index := index + 1;
      }
    }
  }
}

=== FILE: tasks_models.dfy ===
/**
 * The two records of the task tracker, `CustomUser` and `Task`, as values.
 * Money is held in integer cents (the source's fields are decimals with two
 * fraction digits); dates are day numbers and timestamps plain integers.
 */
module TaskModels {
  import opened Wrappers

  type UserId = int
  type TaskId = int

  /** Decimal fields have at most 10 digits, 2 of them after the point. */
  const MoneyDigits: nat := 10
  const MoneyBound: int := 10_000_000_000

  /** A value a `DecimalField(max_digits=10, decimal_places=2)` can hold, in cents. */
  predicate IsMoney(cents: int) {
    -MoneyBound < cents < MoneyBound
  }

  /** An account. `manager` is the account the user reports to, if any. */
  datatype User = User(
    id: UserId,
    username: string,
    isStaff: bool,
    isSuperuser: bool,
    manager: Option<UserId>,
    balance: int,
    password: string)

  /** A unit of paid work assigned to one employee by one staff member. */
  datatype Task = Task(
    id: TaskId,
    title: string,
    description: string,
    assignedTo: UserId,
    dueDate: int,
    paymentAmount: int,
    status: string,
    createdDate: int,
    submittedDate: Option<int>,
    createdBy: UserId)

  /** The status codes the model declares, with their display names. */
  const StatusChoices: seq<(string, string)> := [
    ("created", "Создана"),
    ("submitted", "Сдана на отчет"),
    ("completed", "Выполнена")
  ]

  const DefaultStatus: string := "created"
  const TitleMaxLength: nat := 200

  predicate IsStatusChoice(code: string) {
    exists k :: 0 <= k < |StatusChoices| && StatusChoices[k].0 == code
  }

  /** Display name of the first choice with code `code` in `choices`, or `""`. */
  function ChoiceName(choices: seq<(string, string)>, code: string): (name: string)
    ensures (exists k :: 0 <= k < |choices| && choices[k].0 == code) ==>
      exists k :: 0 <= k < |choices| && choices[k].0 == code && name == choices[k].1
    ensures (forall k :: 0 <= k < |choices| ==> choices[k].0 != code) ==> name == ""
  {
    if choices == [] then ""
    else if choices[0].0 == code then choices[0].1
    else
      var rest := ChoiceName(choices[1..], code);
      assert forall k :: 1 <= k < |choices| ==> choices[k] == choices[1..][k - 1];
      rest
  }

  /** `dict(Task.STATUS_CHOICES).get(code, '')`: the display name, empty for an undeclared code. */
  function StatusName(code: string): (name: string)
    ensures name != "" <==> IsStatusChoice(code)
  {
    ChoiceName(StatusChoices, code)
  }

  /** The status codes the kanban board shows but the model does not declare have no name. */
  lemma UndeclaredStatusesHaveNoName()
    ensures StatusName("proposed") == "" && StatusName("in_progress") == ""
    ensures StatusName("created") == "Создана" && StatusName("submitted") == "Сдана на отчет"
    ensures StatusName("completed") == "Выполнена"
  {
    assert !IsStatusChoice("proposed") by {
      assert StatusChoices[0].0 == "created" && StatusChoices[1].0 == "submitted" && StatusChoices[2].0 == "completed";
    }
    assert !IsStatusChoice("in_progress") by {
      assert StatusChoices[0].0 == "created" && StatusChoices[1].0 == "submitted" && StatusChoices[2].0 == "completed";
    }
  }

  /** A new account as the user form builds it: no manager, zero balance, not staff. */
  function NewUser(id: UserId, username: string, password: string): (u: User)
    ensures u.id == id && u.username == username && u.password == password
    ensures u.balance == 0 && u.manager.None? && !u.isStaff && !u.isSuperuser
  {
    User(id, username, false, false, None, 0, password)
  }

  /** A new task: status defaults to `created`, it is not yet submitted, and it is
      stamped with its creation time. */
  function NewTask(id: TaskId, title: string, description: string, assignedTo: UserId,
                   dueDate: int, paymentAmount: int, createdBy: UserId, now: int): (t: Task)
    ensures t.status == DefaultStatus && IsStatusChoice(t.status)
    ensures t.submittedDate.None? && t.createdDate == now
    ensures t.id == id && t.assignedTo == assignedTo && t.createdBy == createdBy
    ensures t.title == title && t.description == description
    ensures t.dueDate == dueDate && t.paymentAmount == paymentAmount
  {
    assert StatusChoices[0].0 == "created";
    Task(id, title, description, assignedTo, dueDate, paymentAmount, DefaultStatus, now, None, createdBy)
  }

  /** `manager` may only point at a staff account (`limit_choices_to={'is_staff': True}`). */
  predicate ManagerChoice(users: map<UserId, User>, id: UserId) {
    id in users && users[id].isStaff
  }

  /** `assigned_to` may only point at a non-staff account (`limit_choices_to={'is_staff': False}`). */
  predicate AssigneeChoice(users: map<UserId, User>, id: UserId) {
    id in users && !users[id].isStaff
  }
}

=== FILE: tasks_utils.dfy ===
/**
 * The kanban board: the tasks in scope grouped by status, in a fixed order of
 * five status codes, each group with its tasks, count and payment total; the
 * team variant also splits every group by assignee.
 *
 * The database queries (`filter`, `order_by`, `aggregate`) are the functions
 * `Filter`, `SortByDue` and `SumPayment`; the loops of the source are methods
 * proved against them.
 */
module Kanban {
  import opened Wrappers
  import opened TaskModels

  /** The order in which the board shows the status groups. */
  const StatusOrder: seq<string> := ["proposed", "created", "in_progress", "submitted", "completed"]

  datatype StatusGroup = StatusGroup(code: string, name: string, tasks: seq<Task>, count: nat, totalPayment: int)

  datatype KanbanData = KanbanData(groups: seq<StatusGroup>, totalTasks: nat, totalPayment: int)

  datatype TeamGroup = TeamGroup(code: string, name: string, tasks: seq<Task>,
                                 userTasks: map<UserId, seq<Task>>, count: nat, totalPayment: int)

  datatype TeamKanbanData = TeamKanbanData(groups: seq<TeamGroup>, teamUsers: set<UserId>,
                                           totalTasks: nat, totalPayment: int)

  /** The tasks of `ts` that satisfy `p`, in their order in `ts`. */
  function Filter(ts: seq<Task>, p: Task -> bool): (r: seq<Task>)
    ensures |r| <= |ts|
    ensures forall k :: 0 <= k < |r| ==> p(r[k]) && r[k] in ts
  {
    if ts == [] then []
    else
      var init := Filter(ts[..|ts| - 1], p);
      var last := ts[|ts| - 1];
      init + (if p(last) then [last] else [])
  }

  function HasStatus(code: string): Task -> bool {
    (t: Task) => t.status == code
  }

  function IsAssignedTo(u: UserId): Task -> bool {
    (t: Task) => t.assignedTo == u
  }

  /** `filter(status=code)`. */
  function WithStatus(ts: seq<Task>, code: string): seq<Task> {
    Filter(ts, HasStatus(code))
  }

  /** `filter(assigned_to=u)`. */
  function AssignedTo(ts: seq<Task>, u: UserId): seq<Task> {
    Filter(ts, IsAssignedTo(u))
  }

  /** `filter(assigned_to__in=team)`. */
  function InTeam(ts: seq<Task>, team: set<UserId>): seq<Task> {
    Filter(ts, (t: Task) => t.assignedTo in team)
  }

  /** `Sum('payment_amount')` with `or 0`: the sum of the payments, 0 for no tasks. */
  function SumPayment(ts: seq<Task>): int {
    if ts == [] then 0 else ts[0].paymentAmount + SumPayment(ts[1..])
  }

  /** The set of assignees of `ts`. */
  function Assignees(ts: seq<Task>): set<UserId> {
    set t | t in ts :: t.assignedTo
  }

  /** `order_by('due_date', 'created_date')`: `a` may come before `b`. */
  predicate DueNoLater(a: Task, b: Task) {
    a.dueDate < b.dueDate || (a.dueDate == b.dueDate && a.createdDate <= b.createdDate)
  }

  predicate SortedByDue(ts: seq<Task>) {
    forall i, j :: 0 <= i < j < |ts| ==> DueNoLater(ts[i], ts[j])
  }

  function Insert(t: Task, ts: seq<Task>): seq<Task> {
    if ts == [] || DueNoLater(t, ts[0]) then [t] + ts
    else [ts[0]] + Insert(t, ts[1..])
  }

  /** The tasks ordered by due date, then creation date; ties keep their order. */
  function SortByDue(ts: seq<Task>): seq<Task> {
    if ts == [] then [] else Insert(ts[0], SortByDue(ts[1..]))
  }

  /** The tasks the board is about: those of `assignedToUser` when given, else those of `user`. */
  function Scope(all: seq<Task>, user: UserId, assignedToUser: Option<UserId>): seq<Task> {
    AssignedTo(all, if assignedToUser.Some? then assignedToUser.value else user)
  }

  /** `g` is the board's group for `code` over the scoped tasks. */
  predicate IsGroupFor(g: StatusGroup, scoped: seq<Task>, code: string) {
    && g.code == code && g.name == StatusName(code)
    && g.tasks == SortByDue(WithStatus(scoped, code))
    && g.count == |g.tasks|
    && g.totalPayment == SumPayment(g.tasks)
  }

  /** Sum of the group counts. */
  function CountSum(groups: seq<StatusGroup>): nat {
    if groups == [] then 0 else groups[0].count + CountSum(groups[1..])
  }

  /** Sum of the group payment totals. */
  function PaymentSum(groups: seq<StatusGroup>): int {
    if groups == [] then 0 else groups[0].totalPayment + PaymentSum(groups[1..])
  }

  lemma {:induction false} FilterAppend(a: seq<Task>, b: seq<Task>, p: Task -> bool)
    ensures Filter(a + b, p) == Filter(a, p) + Filter(b, p)
    decreases |b|
  {
    if b == [] {
      assert a + b == a;
    } else {
      var b' := b[..|b| - 1];
      assert (a + b)[..|a + b| - 1] == a + b';
      FilterAppend(a, b', p);
    }
  }

  /** A filter keeps every task that satisfies the condition as often as it occurs, and no other. */
  lemma {:induction false} FilterMultiset(ts: seq<Task>, p: Task -> bool)
    ensures forall t :: multiset(Filter(ts, p))[t] == if p(t) then multiset(ts)[t] else 0
    decreases |ts|
  {
    if ts != [] {
      var init, last := ts[..|ts| - 1], ts[|ts| - 1];
      FilterMultiset(init, p);
      assert ts == init + [last];
      assert multiset(ts) == multiset(init) + multiset{last};
      assert Filter(ts, p) == Filter(init, p) + (if p(last) then [last] else []);
    }
  }

  /** Nothing passes a filter that no task satisfies. */
  lemma {:induction false} FilterNone(ts: seq<Task>, p: Task -> bool)
    requires forall k :: 0 <= k < |ts| ==> !p(ts[k])
    ensures Filter(ts, p) == []
    decreases |ts|
  {
    if ts != [] {
      FilterNone(ts[..|ts| - 1], p);
    }
  }

  lemma {:induction false} SumPaymentAppend(a: seq<Task>, b: seq<Task>)
    ensures SumPayment(a + b) == SumPayment(a) + SumPayment(b)
    decreases |a|
  {
    if a != [] {
      assert (a + b)[1..] == a[1..] + b;
      SumPaymentAppend(a[1..], b);
    } else {
      assert a + b == b;
    }
  }

  lemma {:induction false} InsertMultiset(t: Task, ts: seq<Task>)
    ensures multiset(Insert(t, ts)) == multiset(ts) + multiset{t}
    ensures SumPayment(Insert(t, ts)) == t.paymentAmount + SumPayment(ts)
    decreases |ts|
  {
    if ts != [] && !DueNoLater(t, ts[0]) {
      InsertMultiset(t, ts[1..]);
      assert ts == [ts[0]] + ts[1..];
    }
  }

  /** A task due no later than every task of a sorted list can go in front of it. */
  lemma SortedCons(x: Task, ts: seq<Task>)
    requires SortedByDue(ts)
    requires forall k :: 0 <= k < |ts| ==> DueNoLater(x, ts[k])
    ensures SortedByDue([x] + ts)
  {
    var r := [x] + ts;
    forall i, j | 0 <= i < j < |r| ensures DueNoLater(r[i], r[j]) {
      assert r[j] == ts[j - 1];
      if i > 0 {
        assert r[i] == ts[i - 1];
      }
    }
  }

  /** Inserting into a sorted list keeps it sorted. */
  lemma {:induction false} InsertSorted(t: Task, ts: seq<Task>)
    requires SortedByDue(ts)
    ensures SortedByDue(Insert(t, ts))
    decreases |ts|
  {
    if ts == [] {
    } else if DueNoLater(t, ts[0]) {
      forall k | 0 <= k < |ts| ensures DueNoLater(t, ts[k]) {
        if k > 0 {
          assert DueNoLater(ts[0], ts[k]);
        }
      }
      SortedCons(t, ts);
    } else {
      var rest := Insert(t, ts[1..]);
      InsertSorted(t, ts[1..]);
      InsertMultiset(t, ts[1..]);
      forall k | 0 <= k < |rest| ensures DueNoLater(ts[0], rest[k]) {
        var x := rest[k];
        assert x in multiset(rest);
        if x != t {
          assert x in multiset(ts[1..]);
          var m :| 0 <= m < |ts[1..]| && ts[1..][m] == x;
          assert ts[1 + m] == x;
        }
      }
      SortedCons(ts[0], rest);
    }
  }

  /** Sorting orders the tasks and keeps exactly the same tasks with the same payment total. */
  lemma {:induction false} SortByDueSpec(ts: seq<Task>)
    ensures SortedByDue(SortByDue(ts))
    ensures multiset(SortByDue(ts)) == multiset(ts)
    ensures SumPayment(SortByDue(ts)) == SumPayment(ts)
    decreases |ts|
  {
    if ts != [] {
      SortByDueSpec(ts[1..]);
      InsertSorted(ts[0], SortByDue(ts[1..]));
      InsertMultiset(ts[0], SortByDue(ts[1..]));
      assert ts == [ts[0]] + ts[1..];
    }
  }

  /** Each status group holds exactly the scoped tasks with that status, each as often as
      it is in scope, ordered by due date then creation date; its count is their number and
      its total their payment sum (0 when there are none). */
  lemma GroupContents(g: StatusGroup, scoped: seq<Task>, code: string)
    requires IsGroupFor(g, scoped, code)
    ensures SortedByDue(g.tasks)
    ensures forall t :: multiset(g.tasks)[t] == if t.status == code then multiset(scoped)[t] else 0
    ensures g.count == |WithStatus(scoped, code)|
    ensures g.totalPayment == SumPayment(WithStatus(scoped, code))
    ensures WithStatus(scoped, code) == [] ==> g.count == 0 && g.totalPayment == 0
  {
    SortByDueSpec(WithStatus(scoped, code));
    FilterMultiset(scoped, HasStatus(code));
    assert |g.tasks| == |multiset(g.tasks)| == |multiset(WithStatus(scoped, code))|;
  }

  /** Sum over `codes` of the number of tasks of `ts` with that status. */
  function CountByStatus(ts: seq<Task>, codes: seq<string>): nat {
    if codes == [] then 0 else |WithStatus(ts, codes[0])| + CountByStatus(ts, codes[1..])
  }

  /** Sum over `codes` of the payments of the tasks of `ts` with that status. */
  function PaymentByStatus(ts: seq<Task>, codes: seq<string>): int {
    if codes == [] then 0 else SumPayment(WithStatus(ts, codes[0])) + PaymentByStatus(ts, codes[1..])
  }

  /** Adding one task whose status is among `codes` (once) adds it to exactly one group. */
  lemma {:induction false} ByStatusStep(ts: seq<Task>, t: Task, codes: seq<string>)
    requires forall i, j :: 0 <= i < j < |codes| ==> codes[i] != codes[j]
    ensures CountByStatus(ts + [t], codes) == CountByStatus(ts, codes) + (if t.status in codes then 1 else 0)
    ensures PaymentByStatus(ts + [t], codes) == PaymentByStatus(ts, codes) + (if t.status in codes then t.paymentAmount else 0)
    decreases |codes|
  {
    if codes != [] {
      ByStatusStep(ts, t, codes[1..]);
      var one := Filter([t], HasStatus(codes[0]));
      FilterAppend(ts, [t], HasStatus(codes[0]));
      assert [t][..0] == [];
      assert one == if t.status == codes[0] then [t] else [];
      SumPaymentAppend(WithStatus(ts, codes[0]), one);
      assert t.status in codes <==> t.status == codes[0] || t.status in codes[1..];
      assert t.status == codes[0] ==> t.status !in codes[1..];
    }
  }

  /** When every status is one of some pairwise different `codes`, the groups for those
      codes together count every task once and add up to the whole payment total. */
  lemma {:induction false} ByStatusCovers(ts: seq<Task>, codes: seq<string>)
    requires forall i, j :: 0 <= i < j < |codes| ==> codes[i] != codes[j]
    requires forall k :: 0 <= k < |ts| ==> ts[k].status in codes
    ensures CountByStatus(ts, codes) == |ts|
    ensures PaymentByStatus(ts, codes) == SumPayment(ts)
    decreases |ts|
  {
    if ts != [] {
      var init, t := ts[..|ts| - 1], ts[|ts| - 1];
      assert forall k :: 0 <= k < |init| ==> init[k].status in codes by {
        assert forall k :: 0 <= k < |init| ==> init[k] == ts[k];
      }
      assert ts == init + [t];
      assert t.status in codes;
      ByStatusCovers(init, codes);
      ByStatusStep(init, t, codes);
      calc {
        PaymentByStatus(ts, codes);
        PaymentByStatus(init, codes) + t.paymentAmount;
        SumPayment(init) + t.paymentAmount;
        { SumPaymentAppend(init, [t]); }
        SumPayment(ts);
      }
    } else {
      ByStatusEmpty(codes);
    }
  }

  /** No tasks, nothing counted. */
  lemma {:induction false} ByStatusEmpty(codes: seq<string>)
    ensures CountByStatus([], codes) == 0 && PaymentByStatus([], codes) == 0
    decreases |codes|
  {
    if codes != [] {
      ByStatusEmpty(codes[1..]);
      assert WithStatus([], codes[0]) == [];
    }
  }

  /** When every status is one of the board's five codes, the groups together count every
      scoped task once and add up to the whole payment total. */
  lemma StatusGroupsCover(ts: seq<Task>)
    requires forall k :: 0 <= k < |ts| ==> ts[k].status in StatusOrder
    ensures CountByStatus(ts, StatusOrder) == |ts|
    ensures PaymentByStatus(ts, StatusOrder) == SumPayment(ts)
  {
    StatusOrderDistinct();
    ByStatusCovers(ts, StatusOrder);
  }

  /** The board's codes are pairwise different. */
  lemma StatusOrderDistinct()
    ensures forall i, j :: 0 <= i < j < |StatusOrder| ==> StatusOrder[i] != StatusOrder[j]
  {
  }

  lemma {:induction false} GroupSums(groups: seq<StatusGroup>, scoped: seq<Task>, codes: seq<string>)
    requires |groups| == |codes|
    requires forall i :: 0 <= i < |codes| ==> IsGroupFor(groups[i], scoped, codes[i])
    ensures CountSum(groups) == CountByStatus(scoped, codes)
    ensures PaymentSum(groups) == PaymentByStatus(scoped, codes)
    decreases |codes|
  {
    if codes != [] {
      GroupContents(groups[0], scoped, codes[0]);
      GroupSums(groups[1..], scoped, codes[1..]);
    }
  }

  /** `get_kanban_data`: one group per code of `StatusOrder`, in that order, over the tasks
      in scope, and the overall count and payment total of the scope. */
  method GetKanbanData(all: seq<Task>, user: UserId, assignedToUser: Option<UserId>) returns (r: KanbanData)
    ensures |r.groups| == |StatusOrder|
    ensures forall i :: 0 <= i < |StatusOrder| ==>
      IsGroupFor(r.groups[i], Scope(all, user, assignedToUser), StatusOrder[i])
    ensures r.totalTasks == |Scope(all, user, assignedToUser)|
    ensures r.totalPayment == SumPayment(Scope(all, user, assignedToUser))
    ensures (forall k :: 0 <= k < |Scope(all, user, assignedToUser)| ==> Scope(all, user, assignedToUser)[k].status in StatusOrder)
      ==> CountSum(r.groups) == r.totalTasks && PaymentSum(r.groups) == r.totalPayment
  {
    var tasks := Scope(all, user, assignedToUser);
    var groups: seq<StatusGroup> := [];
    for i := 0 to |StatusOrder|
      invariant |groups| == i
      invariant forall j :: 0 <= j < i ==> IsGroupFor(groups[j], tasks, StatusOrder[j])
    {
      var code := StatusOrder[i];
      var name := StatusName(code);
      var statusTasks := SortByDue(WithStatus(tasks, code));
      var totalPayment := SumPayment(statusTasks);
      groups := groups + [StatusGroup(code, name, statusTasks, |statusTasks|, totalPayment)];
    }
    r := KanbanData(groups, |tasks|, SumPayment(tasks));
    if forall k :: 0 <= k < |tasks| ==> tasks[k].status in StatusOrder {
      GroupSums(groups, tasks, StatusOrder);
      StatusGroupsCover(tasks);
    }
  }

  /** `userTasks` lists, for each assignee of `ts`, that assignee's tasks in order. */
  predicate GroupedByAssignee(userTasks: map<UserId, seq<Task>>, ts: seq<Task>) {
    && userTasks.Keys == Assignees(ts)
    && forall u :: u in userTasks ==> userTasks[u] == AssignedTo(ts, u)
  }

  /** Appending task `ts[i]` to its assignee's list (a fresh one when the assignee has none
      yet) groups one more task. */
  lemma GroupedStep(userTasks: map<UserId, seq<Task>>, ts: seq<Task>, i: nat)
    requires i < |ts| && GroupedByAssignee(userTasks, ts[..i])
    ensures var u := ts[i].assignedTo;
      GroupedByAssignee(userTasks[u := (if u in userTasks then userTasks[u] else []) + [ts[i]]], ts[..i + 1])
  {
    var task, user := ts[i], ts[i].assignedTo;
    var prefix := ts[..i];
    assert ts[..i + 1] == prefix + [task];
    var next := userTasks[user := (if user in userTasks then userTasks[user] else []) + [task]];
    forall u | u in next ensures next[u] == AssignedTo(ts[..i + 1], u) {
      FilterAppend(prefix, [task], IsAssignedTo(u));
      assert [task][..0] == [];
      if u == user && user !in userTasks {
        forall k | 0 <= k < |prefix| ensures prefix[k].assignedTo != user {
          assert prefix[k] in prefix;
        }
        FilterNone(prefix, IsAssignedTo(user));
      }
    }
    assert next.Keys == Assignees(ts[..i + 1]);
  }

  /** The inner loop of `get_team_kanban_data`: the tasks of one group split by assignee,
      each list in the group's order. */
  method GroupByAssignee(ts: seq<Task>) returns (userTasks: map<UserId, seq<Task>>)
    ensures userTasks.Keys == Assignees(ts)
    ensures forall u :: u in userTasks ==> userTasks[u] == AssignedTo(ts, u)
  {
    userTasks := map[];
    for i := 0 to |ts|
      invariant GroupedByAssignee(userTasks, ts[..i])
    {
      var task := ts[i];
      var user := task.assignedTo;
      GroupedStep(userTasks, ts, i);
      if user !in userTasks {
        userTasks := userTasks[user := []];
      }
      userTasks := userTasks[user := userTasks[user] + [task]];
    }
    assert ts[..|ts|] == ts;
  }

  /** In a team group every task is listed under its own assignee, exactly as often as it is
      in the group, and under no other user. */
  lemma UserTasksPartition(g: TeamGroup)
    requires g.userTasks.Keys == Assignees(g.tasks)
    requires forall u :: u in g.userTasks ==> g.userTasks[u] == AssignedTo(g.tasks, u)
    ensures forall t :: t in g.tasks ==>
      t.assignedTo in g.userTasks && multiset(g.userTasks[t.assignedTo])[t] == multiset(g.tasks)[t]
    ensures forall u, t :: u in g.userTasks && t in g.userTasks[u] ==> t.assignedTo == u && t in g.tasks
  {
    forall t | t in g.tasks
      ensures t.assignedTo in g.userTasks && multiset(g.userTasks[t.assignedTo])[t] == multiset(g.tasks)[t]
    {
      FilterMultiset(g.tasks, IsAssignedTo(t.assignedTo));
    }
  }

  /** `g` is the team board's group for `code` over the team's tasks. */
  predicate IsTeamGroupFor(g: TeamGroup, teamTasks: seq<Task>, code: string) {
    && g.code == code && g.name == StatusName(code)
    && g.tasks == WithStatus(teamTasks, code)
    && g.userTasks.Keys == Assignees(g.tasks)
    && (forall u :: u in g.userTasks ==> g.userTasks[u] == AssignedTo(g.tasks, u))
    && g.count == |g.tasks|
    && g.totalPayment == SumPayment(g.tasks)
  }

  /** `get_team_kanban_data`: the same five groups over the tasks of the team's members,
      each split by assignee. */
  method GetTeamKanbanData(all: seq<Task>, teamUsers: set<UserId>) returns (r: TeamKanbanData)
    ensures |r.groups| == |StatusOrder| && r.teamUsers == teamUsers
    ensures forall i :: 0 <= i < |StatusOrder| ==> IsTeamGroupFor(r.groups[i], InTeam(all, teamUsers), StatusOrder[i])
    ensures forall i, t :: 0 <= i < |StatusOrder| && t in r.groups[i].tasks ==>
      t.assignedTo in teamUsers && t.status == StatusOrder[i] && t in all
    ensures r.totalTasks == |InTeam(all, teamUsers)| && r.totalPayment == SumPayment(InTeam(all, teamUsers))
  {
    var tasks := InTeam(all, teamUsers);
    var groups: seq<TeamGroup> := [];
    for i := 0 to |StatusOrder|
      invariant |groups| == i
      invariant forall j :: 0 <= j < i ==> IsTeamGroupFor(groups[j], tasks, StatusOrder[j])
    {
      var code := StatusOrder[i];
      var name := StatusName(code);
      var statusTasks := WithStatus(tasks, code);
      var totalPayment := SumPayment(statusTasks);
      var userTasks := GroupByAssignee(statusTasks);
      groups := groups + [TeamGroup(code, name, statusTasks, userTasks, |statusTasks|, totalPayment)];
    }
    r := TeamKanbanData(groups, teamUsers, |tasks|, SumPayment(tasks));
  }
}

=== FILE: tasks_views.dfy ===
/**
 * The task views as guarded updates of the stored users and tasks.
 *
 * Each view is first given as a function from the stored state and the request
 * to the response and the new state (`Submit`, `Complete`, ...), whose
 * contracts say who may act and what changes; the `TaskStore` class then holds
 * the state and its methods update it in place, proved equal to those functions.
 * The requester is the logged-in account; `isPost` says whether the request is
 * a POST; `now` stands for `timezone.now()`.
 */
module TaskViews {
  import opened Wrappers
  import opened TaskModels

  /** The stored accounts and tasks, keyed by id. */
  datatype Db = Db(users: map<UserId, User>, tasks: map<TaskId, Task>)

  /** Keys are ids and every task's users exist (foreign keys with cascade delete). */
  predicate Consistent(db: Db) {
    && (forall u :: u in db.users ==> db.users[u].id == u)
    && (forall t :: t in db.tasks ==> db.tasks[t].id == t)
    && (forall t :: t in db.tasks ==> db.tasks[t].assignedTo in db.users && db.tasks[t].createdBy in db.users)
  }

  const Dashboard: string := "dashboard"

  /** What a view answers: a redirect, a rendered page, the task form with its
      assignee choices, or a 404 from `get_object_or_404`. */
  datatype Response =
    | Redirect(to: string)
    | Render(template: string)
    | RenderTaskForm(assigneeChoices: set<UserId>)
    | NotFound

  datatype Outcome = Outcome(response: Response, db: Db)

  datatype EmployeeForm = EmployeeForm(username: string, firstName: string, lastName: string,
                                       email: string, password: string)

  datatype TaskForm = TaskForm(title: string, description: string, assignedTo: UserId,
                               dueDate: int, paymentAmount: int)

  /** The user form accepts a non-empty, unused username of at most 150 characters and a
      non-empty password. */
  predicate EmployeeFormValid(db: Db, f: EmployeeForm) {
    && f.username != "" && |f.username| <= 150 && f.password != ""
    && forall u :: u in db.users ==> db.users[u].username != f.username
  }

  /** The task form accepts a non-empty title of at most 200 characters, a description, an
      assignee among the non-staff accounts and an amount with at most 10 digits. */
  predicate TaskFormValid(db: Db, f: TaskForm) {
    && 1 <= |f.title| <= TitleMaxLength && f.description != ""
    && AssigneeChoice(db.users, f.assignedTo)
    && IsMoney(f.paymentAmount)
  }

  /** The accounts that report to `manager`. */
  function Subordinates(db: Db, manager: UserId): (r: set<UserId>)
    ensures forall u :: u in r <==> u in db.users && db.users[u].manager == Some(manager)
  {
    set u | u in db.users && db.users[u].manager == Some(manager)
  }

  /** The accounts the task form offers by default. */
  function NonStaff(db: Db): (r: set<UserId>)
    ensures forall u :: u in r <==> AssigneeChoice(db.users, u)
  {
    set u | u in db.users && !db.users[u].isStaff
  }

  /** The task `taskId` is assigned to `requester`. */
  predicate OwnsTask(db: Db, requester: UserId, taskId: TaskId) {
    taskId in db.tasks && db.tasks[taskId].assignedTo == requester
  }

  /** The task `taskId` was created by `requester`. */
  predicate CreatedTask(db: Db, requester: UserId, taskId: TaskId) {
    taskId in db.tasks && db.tasks[taskId].createdBy == requester
  }

  /** `employeeId` reports to `requester`. */
  predicate Manages(db: Db, requester: UserId, employeeId: UserId) {
    employeeId in db.users && db.users[employeeId].manager == Some(requester)
  }

  /** `submit_task`: only the assignee finds the task; on POST it becomes `submitted`
      and is stamped with `now`, whatever its status was; nothing else changes. */
  function Submit(db: Db, requester: UserId, taskId: TaskId, isPost: bool, now: int): (r: Outcome)
    requires Consistent(db)
    ensures Consistent(r.db)
    ensures r.response == NotFound <==> !OwnsTask(db, requester, taskId)
    ensures r.db.users == db.users && r.db.tasks.Keys == db.tasks.Keys
    ensures forall id :: id in db.tasks && id != taskId ==> r.db.tasks[id] == db.tasks[id]
    ensures !OwnsTask(db, requester, taskId) || !isPost ==> r.db == db
    ensures OwnsTask(db, requester, taskId) && isPost ==>
      && r.response == Redirect(Dashboard)
      && r.db.tasks[taskId].status == "submitted"
      && r.db.tasks[taskId].submittedDate == Some(now)
      && r.db.tasks[taskId] == db.tasks[taskId].(status := "submitted", submittedDate := Some(now))
  {
    if !OwnsTask(db, requester, taskId) then Outcome(NotFound, db)
    else if isPost then
      var task := db.tasks[taskId].(status := "submitted", submittedDate := Some(now));
      Outcome(Redirect(Dashboard), db.(tasks := db.tasks[taskId := task]))
    else Outcome(Render("tasks/submit_task.html"), db)
  }

  /** `complete_task`: a non-staff requester is sent away; otherwise only the creator finds
      the task; on POST it becomes `completed` and its assignee's balance grows by exactly
      the task's payment. There is no check of the current status. */
  function Complete(db: Db, requester: UserId, taskId: TaskId, isPost: bool): (r: Outcome)
    requires Consistent(db) && requester in db.users
    ensures Consistent(r.db)
    ensures !db.users[requester].isStaff ==> r == Outcome(Redirect(Dashboard), db)
    ensures db.users[requester].isStaff ==> (r.response == NotFound <==> !CreatedTask(db, requester, taskId))
    ensures r.db.users.Keys == db.users.Keys && r.db.tasks.Keys == db.tasks.Keys
    ensures forall id :: id in db.tasks && id != taskId ==> r.db.tasks[id] == db.tasks[id]
    ensures !(db.users[requester].isStaff && CreatedTask(db, requester, taskId) && isPost) ==> r.db == db
    ensures db.users[requester].isStaff && CreatedTask(db, requester, taskId) && isPost ==>
      var t := db.tasks[taskId];
      && r.response == Redirect(Dashboard)
      && r.db.tasks[taskId] == t.(status := "completed")
      && r.db.users[t.assignedTo].balance == db.users[t.assignedTo].balance + t.paymentAmount
      && r.db.users[t.assignedTo] == db.users[t.assignedTo].(balance := r.db.users[t.assignedTo].balance)
      && forall u :: u in db.users && u != t.assignedTo ==> r.db.users[u] == db.users[u]
  {
    if !db.users[requester].isStaff then Outcome(Redirect(Dashboard), db)
    else if !CreatedTask(db, requester, taskId) then Outcome(NotFound, db)
    else if isPost then
      var task := db.tasks[taskId];
      var tasks := db.tasks[taskId := task.(status := "completed")];
      var employee := db.users[task.assignedTo];
      var users := db.users[task.assignedTo := employee.(balance := employee.balance + task.paymentAmount)];
      Outcome(Redirect(Dashboard), Db(users, tasks))
    else Outcome(Render("tasks/complete_task.html"), db)
  }

  /** `create_employee`: a staff requester who posts a valid form adds exactly one account,
      a non-staff one that reports to the requester with a zero balance; anything else
      changes nothing. */
  function CreateEmployee(db: Db, requester: UserId, isPost: bool, form: EmployeeForm, newId: UserId): (r: Outcome)
    requires Consistent(db) && requester in db.users && newId !in db.users
    ensures Consistent(r.db)
    ensures !db.users[requester].isStaff ==> r == Outcome(Redirect(Dashboard), db)
    ensures r.db.tasks == db.tasks
    ensures !(db.users[requester].isStaff && isPost && EmployeeFormValid(db, form)) ==> r.db == db
    ensures db.users[requester].isStaff && isPost && EmployeeFormValid(db, form) ==>
      && r.response == Redirect(Dashboard)
      && r.db.users.Keys == db.users.Keys + {newId}
      && (forall u :: u in db.users ==> r.db.users[u] == db.users[u])
      && var e := r.db.users[newId];
         e.manager == Some(requester) && !e.isStaff && !e.isSuperuser && e.balance == 0
         && e.username == form.username && e.password == form.password
  {
    if !db.users[requester].isStaff then Outcome(Redirect(Dashboard), db)
    else if isPost && EmployeeFormValid(db, form) then
      var user := NewUser(newId, form.username, form.password);
      var user := user.(manager := Some(requester), isStaff := false);
      Outcome(Redirect(Dashboard), db.(users := db.users[newId := user]))
    else Outcome(Render("tasks/create_employee.html"), db)
  }

  /** `create_task`: a staff requester who posts a valid form adds exactly one task,
      created by the requester in the default status. On GET the assignee choices are
      exactly the requester's subordinates; a posted form is checked only against the
      non-staff accounts. */
  function CreateTask(db: Db, requester: UserId, isPost: bool, form: TaskForm, newId: TaskId, now: int): (r: Outcome)
    requires Consistent(db) && requester in db.users && newId !in db.tasks
    ensures Consistent(r.db)
    ensures !db.users[requester].isStaff ==> r == Outcome(Redirect(Dashboard), db)
    ensures r.db.users == db.users
    ensures db.users[requester].isStaff && !isPost ==>
      r.response.RenderTaskForm? &&
      forall u :: u in r.response.assigneeChoices <==> Manages(db, requester, u)
    ensures !(db.users[requester].isStaff && isPost && TaskFormValid(db, form)) ==> r.db == db
    ensures db.users[requester].isStaff && isPost && TaskFormValid(db, form) ==>
      && r.response == Redirect(Dashboard)
      && r.db.tasks.Keys == db.tasks.Keys + {newId}
      && (forall id :: id in db.tasks ==> r.db.tasks[id] == db.tasks[id])
      && r.db.tasks[newId] == NewTask(newId, form.title, form.description, form.assignedTo,
                                      form.dueDate, form.paymentAmount, requester, now)
  {
    if !db.users[requester].isStaff then Outcome(Redirect(Dashboard), db)
    else if isPost then
      if TaskFormValid(db, form) then
        var task := NewTask(newId, form.title, form.description, form.assignedTo,
                            form.dueDate, form.paymentAmount, requester, now);
        Outcome(Redirect(Dashboard), db.(tasks := db.tasks[newId := task]))
      else Outcome(RenderTaskForm(NonStaff(db)), db)
    else Outcome(RenderTaskForm(Subordinates(db, requester)), db)
  }

  /** `change_employee_password`: only a staff requester, and only for an account that
      reports to the requester; an absent or empty password changes nothing. */
  function ChangeEmployeePassword(db: Db, requester: UserId, employeeId: UserId, isPost: bool,
                                  newPassword: Option<string>): (r: Outcome)
    requires Consistent(db) && requester in db.users
    ensures Consistent(r.db)
    ensures !db.users[requester].isStaff ==> r == Outcome(Redirect(Dashboard), db)
    ensures db.users[requester].isStaff ==> (r.response == NotFound <==> !Manages(db, requester, employeeId))
    ensures r.db.tasks == db.tasks && r.db.users.Keys == db.users.Keys
    ensures forall u :: u in db.users && u != employeeId ==> r.db.users[u] == db.users[u]
    ensures db.users[requester].isStaff && Manages(db, requester, employeeId) && isPost
            && newPassword.Some? && newPassword.value != "" ==>
      && r.response == Redirect(Dashboard)
      && r.db.users[employeeId] == db.users[employeeId].(password := newPassword.value)
    ensures r.db != db ==>
      && db.users[requester].isStaff && Manages(db, requester, employeeId) && isPost
      && newPassword.Some? && newPassword.value != ""
      && r.db.users[employeeId] == db.users[employeeId].(password := newPassword.value)
      && r.response == Redirect(Dashboard)
  {
    if !db.users[requester].isStaff then Outcome(Redirect(Dashboard), db)
    else if !Manages(db, requester, employeeId) then Outcome(NotFound, db)
    else if isPost && newPassword.Some? && newPassword.value != "" then
      var employee := db.users[employeeId].(password := newPassword.value);
      Outcome(Redirect(Dashboard), db.(users := db.users[employeeId := employee]))
    else Outcome(Render("tasks/change_employee_password.html"), db)
  }

  /** Completing the same task twice credits its assignee twice: nothing stops a
      second completion of a task that is already `completed`. */
  lemma CompleteTwiceCreditsTwice(db: Db, requester: UserId, taskId: TaskId)
    requires Consistent(db) && requester in db.users && db.users[requester].isStaff
    requires CreatedTask(db, requester, taskId)
    ensures var once := Complete(db, requester, taskId, true).db;
      var twice := Complete(once, requester, taskId, true).db;
      var t := db.tasks[taskId];
      twice.tasks[taskId].status == "completed"
      && twice.users[t.assignedTo].balance == db.users[t.assignedTo].balance + 2 * t.paymentAmount
  {
    var once := Complete(db, requester, taskId, true).db;
    assert once.users[requester] == db.users[requester].(balance := once.users[requester].balance);
    assert once.tasks[taskId].assignedTo == db.tasks[taskId].assignedTo;
  }

  /** A posted task form may name any non-staff account as assignee, including one that
      does not report to the requester: only the GET form narrows the choices. */
  lemma CreateTaskAcceptsForeignAssignee(db: Db, requester: UserId, form: TaskForm, newId: TaskId, now: int)
    requires Consistent(db) && requester in db.users && db.users[requester].isStaff
    requires newId !in db.tasks && TaskFormValid(db, form)
    requires !Manages(db, requester, form.assignedTo)
    ensures var r := CreateTask(db, requester, true, form, newId, now);
      newId in r.db.tasks && r.db.tasks[newId].assignedTo == form.assignedTo
      && form.assignedTo !in CreateTask(db, requester, false, form, newId, now).response.assigneeChoices
  {
  }

  /** Submission is possible from any status, including `completed`. */
  lemma SubmitIgnoresStatus(db: Db, requester: UserId, taskId: TaskId, now: int)
    requires Consistent(db) && OwnsTask(db, requester, taskId)
    requires db.tasks[taskId].status == "completed"
    ensures Submit(db, requester, taskId, true, now).db.tasks[taskId].status == "submitted"
  {
  }

  /** The declared choices hold for every stored record: each task's status is one of the
      status choices, each manager is a staff account and each assignee a non-staff one. */
  predicate WellFormed(db: Db) {
    && (forall t :: t in db.tasks ==> IsStatusChoice(db.tasks[t].status))
    && (forall u :: u in db.users && db.users[u].manager.Some? ==> ManagerChoice(db.users, db.users[u].manager.value))
    && (forall t :: t in db.tasks ==> AssigneeChoice(db.users, db.tasks[t].assignedTo))
  }

  /** Submitting keeps the stored records within their choices: `submitted` is a declared status. */
  lemma SubmitKeepsWellFormed(db: Db, requester: UserId, taskId: TaskId, isPost: bool, now: int)
    requires Consistent(db) && WellFormed(db)
    ensures WellFormed(Submit(db, requester, taskId, isPost, now).db)
  {
    assert StatusChoices[1].0 == "submitted";
  }

  /** Completing keeps the stored records within their choices: `completed` is a declared status
      and crediting a balance leaves every account's staff flag as it was. */
  lemma CompleteKeepsWellFormed(db: Db, requester: UserId, taskId: TaskId, isPost: bool)
    requires Consistent(db) && WellFormed(db) && requester in db.users
    ensures WellFormed(Complete(db, requester, taskId, isPost).db)
  {
    assert StatusChoices[2].0 == "completed";
  }

  /** A new employee is a non-staff account under a staff manager, and no stored record changes. */
  lemma CreateEmployeeKeepsWellFormed(db: Db, requester: UserId, isPost: bool, form: EmployeeForm, newId: UserId)
    requires Consistent(db) && WellFormed(db) && requester in db.users && newId !in db.users
    ensures WellFormed(CreateEmployee(db, requester, isPost, form, newId).db)
  {
  }

  /** A new task starts in a declared status and is assigned to a non-staff account. */
  lemma CreateTaskKeepsWellFormed(db: Db, requester: UserId, isPost: bool, form: TaskForm, newId: TaskId, now: int)
    requires Consistent(db) && WellFormed(db) && requester in db.users && newId !in db.tasks
    ensures WellFormed(CreateTask(db, requester, isPost, form, newId, now).db)
  {
  }

  /** Changing a password leaves every account's staff flag and manager as they were. */
  lemma ChangeEmployeePasswordKeepsWellFormed(db: Db, requester: UserId, employeeId: UserId, isPost: bool,
                                              newPassword: Option<string>)
    requires Consistent(db) && WellFormed(db) && requester in db.users
    ensures WellFormed(ChangeEmployeePassword(db, requester, employeeId, isPost, newPassword).db)
  {
  }

  /** The stored users and tasks, updated in place by the views. */
  class TaskStore {
    var users: map<UserId, User>
    var tasks: map<TaskId, Task>

    function Snapshot(): Db
      reads this
    {
      Db(users, tasks)
    }

    constructor (users: map<UserId, User>, tasks: map<TaskId, Task>)
      requires Consistent(Db(users, tasks))
      ensures Snapshot() == Db(users, tasks)
    {
      this.users := users;
      this.tasks := tasks;
    }

    method SubmitTask(requester: UserId, taskId: TaskId, isPost: bool, now: int) returns (response: Response)
      requires Consistent(Snapshot())
      modifies this
      ensures Outcome(response, Snapshot()) == Submit(old(Snapshot()), requester, taskId, isPost, now)
    {
      if taskId !in tasks || tasks[taskId].assignedTo != requester {
        return NotFound;
      }
      if isPost {
        var task := tasks[taskId];
        task := task.(status := "submitted");
        task := task.(submittedDate := Some(now));
        tasks := tasks[taskId := task];
        return Redirect(Dashboard);
      }
      response := Render("tasks/submit_task.html");
    }

    method CompleteTask(requester: UserId, taskId: TaskId, isPost: bool) returns (response: Response)
      requires Consistent(Snapshot()) && requester in users
      modifies this
      ensures Outcome(response, Snapshot()) == Complete(old(Snapshot()), requester, taskId, isPost)
    {
      if !users[requester].isStaff {
        return Redirect(Dashboard);
      }
      if taskId !in tasks || tasks[taskId].createdBy != requester {
        return NotFound;
      }
      if isPost {
        var task := tasks[taskId];
        task := task.(status := "completed");
        tasks := tasks[taskId := task];
        var employee := users[task.assignedTo];
        employee := employee.(balance := employee.balance + task.paymentAmount);
        users := users[task.assignedTo := employee];
        return Redirect(Dashboard);
      }
      response := Render("tasks/complete_task.html");
    }

    method CreateEmployeeView(requester: UserId, isPost: bool, form: EmployeeForm, newId: UserId)
      returns (response: Response)
      requires Consistent(Snapshot()) && requester in users && newId !in users
      modifies this
      ensures Outcome(response, Snapshot()) == CreateEmployee(old(Snapshot()), requester, isPost, form, newId)
    {
      if !users[requester].isStaff {
        return Redirect(Dashboard);
      }
      if isPost && EmployeeFormValid(Snapshot(), form) {
        var user := NewUser(newId, form.username, form.password);
        user := user.(manager := Some(requester));
        user := user.(isStaff := false);
        users := users[newId := user];
        return Redirect(Dashboard);
      }
      response := Render("tasks/create_employee.html");
    }

    method CreateTaskView(requester: UserId, isPost: bool, form: TaskForm, newId: TaskId, now: int)
      returns (response: Response)
      requires Consistent(Snapshot()) && requester in users && newId !in tasks
      modifies this
      ensures Outcome(response, Snapshot()) == CreateTask(old(Snapshot()), requester, isPost, form, newId, now)
    {
      if !users[requester].isStaff {
        return Redirect(Dashboard);
      }
      if isPost {
        if TaskFormValid(Snapshot(), form) {
          var task := NewTask(newId, form.title, form.description, form.assignedTo,
                              form.dueDate, form.paymentAmount, requester, now);
          tasks := tasks[newId := task];
          return Redirect(Dashboard);
        }
        return RenderTaskForm(NonStaff(Snapshot()));
      }
      response := RenderTaskForm(Subordinates(Snapshot(), requester));
    }

    method ChangeEmployeePasswordView(requester: UserId, employeeId: UserId, isPost: bool,
                                      newPassword: Option<string>) returns (response: Response)
      requires Consistent(Snapshot()) && requester in users
      modifies this
      ensures Outcome(response, Snapshot()) ==
        ChangeEmployeePassword(old(Snapshot()), requester, employeeId, isPost, newPassword)
    {
      if !users[requester].isStaff {
        return Redirect(Dashboard);
      }
      if employeeId !in users || users[employeeId].manager != Some(requester) {
        return NotFound;
      }
      if isPost && newPassword.Some? && newPassword.value != "" {
        var employee := users[employeeId];
        employee := employee.(password := newPassword.value);
        users := users[employeeId := employee];
        return Redirect(Dashboard);
      }
      response := Render("tasks/change_employee_password.html");
    }
  }
}

=== FILE: text.dfy ===
/**
 * The handful of Python string operations the core relies on, over `seq<char>`:
 * `str.split(sep)`, `sep.join(items)`, `str.strip()`, `str.split()` (on runs of
 * whitespace), `str.lower()`, `str.isalnum()` and the `in` substring test.
 *
 * Case and character classes are character predicates over ASCII and the basic
 * Cyrillic block (U+0400..U+045F); other scripts are outside this model.
 */
module Text {

  /** `c.isspace()`: the characters Python treats as whitespace. */
  predicate IsSpace(c: char) {
    var n := c as int;
    n == 0x20 || 0x09 <= n <= 0x0D || 0x1C <= n <= 0x1F || n == 0x85 || n == 0xA0
    || n == 0x1680 || 0x2000 <= n <= 0x200A || n == 0x2028 || n == 0x2029
    || n == 0x202F || n == 0x205F || n == 0x3000
  }

  /** `c.isalnum()` on Latin letters, digits and basic Cyrillic letters. */
  predicate IsAlnum(c: char) {
    ('a' <= c <= 'z') || ('A' <= c <= 'Z') || ('0' <= c <= '9')
    || (0x400 <= c as int <= 0x45F)
  }

  /** `c.lower()` on the same alphabet; every other character is its own lower case. */
  function Lower(c: char): (r: char)
    ensures IsAlnum(r) == IsAlnum(c)
    ensures !IsSpace(c) ==> !IsSpace(r)
  {
    if 'A' <= c <= 'Z' then (c as int + 32) as char
    else if 0x400 <= c as int <= 0x40F then (c as int + 0x50) as char
    else if 0x410 <= c as int <= 0x42F then (c as int + 0x20) as char
    else c
  }

  /** Lower-casing is idempotent. */
  lemma LowerLower(c: char)
    ensures Lower(Lower(c)) == Lower(c)
  {
  }

  /** `s.lower()`. */
  function LowerStr(s: string): (r: string)
    ensures |r| == |s|
    ensures forall i :: 0 <= i < |s| ==> r[i] == Lower(s[i])
  {
    seq(|s|, i requires 0 <= i < |s| => Lower(s[i]))
  }

  /** `s.startswith(w)`. */
  predicate StartsWith(s: string, w: string) {
    |w| <= |s| && s[..|w|] == w
  }

  /** `w in s` for strings: `w` occurs as a contiguous piece of `s`. */
  predicate Contains(s: string, w: string) {
    exists i :: 0 <= i <= |s| && StartsWith(s[i..], w)
  }

  /** Number of occurrences of `c` in `s`. */
  function Count(s: string, c: char): nat {
    if s == [] then 0 else (if s[0] == c then 1 else 0) + Count(s[1..], c)
  }

  /** `s.split(sep)`: the pieces between separators, empty pieces included. */
  function Split(s: string, sep: char): (r: seq<string>)
    ensures |r| >= 1
    ensures forall k :: 0 <= k < |r| ==> sep !in r[k]
    decreases |s|
  {
    if s == [] then [""]
    else
      var rest := Split(s[1..], sep);
      if s[0] == sep then [""] + rest
      else [[s[0]] + rest[0]] + rest[1..]
  }

  /** `sep.join(items)`. */
  function Join(items: seq<string>, sep: char): string {
    if |items| == 0 then ""
    else if |items| == 1 then items[0]
    else items[0] + [sep] + Join(items[1..], sep)
  }

  /** `s.lstrip()`. */
  function StripLeft(s: string): (r: string)
    ensures |r| <= |s| && r == s[|s| - |r|..]
    ensures forall i :: 0 <= i < |s| - |r| ==> IsSpace(s[i])
    ensures r != [] ==> !IsSpace(r[0])
  {
    if s != [] && IsSpace(s[0]) then StripLeft(s[1..]) else s
  }

  /** `s.rstrip()`. */
  function StripRight(s: string): (r: string)
    ensures |r| <= |s| && r == s[..|r|]
    ensures forall i :: |r| <= i < |s| ==> IsSpace(s[i])
    ensures r != [] ==> !IsSpace(r[|r| - 1])
  {
    if s != [] && IsSpace(s[|s| - 1]) then StripRight(s[..|s| - 1]) else s
  }

  /** `s.strip()`. */
  function Strip(s: string): (r: string)
    ensures IsStripped(r) && |r| <= |s|
  {
    StripRight(StripLeft(s))
  }

  /** Neither end of `s` is whitespace. */
  predicate IsStripped(s: string) {
    s == [] || (!IsSpace(s[0]) && !IsSpace(s[|s| - 1]))
  }

  /** Length of the run of non-whitespace characters that starts `s`. */
  function WordLen(s: string): (n: nat)
    ensures n <= |s|
    ensures forall i :: 0 <= i < n ==> !IsSpace(s[i])
    ensures n < |s| ==> IsSpace(s[n])
  {
    if s == [] || IsSpace(s[0]) then 0 else 1 + WordLen(s[1..])
  }

  /** `s.split()`: the maximal runs of non-whitespace characters, in order. */
  function Words(s: string): (r: seq<string>)
    ensures forall k :: 0 <= k < |r| ==> r[k] != [] && forall i :: 0 <= i < |r[k]| ==> !IsSpace(r[k][i])
    decreases |s|
  {
    if s == [] then []
    else if IsSpace(s[0]) then Words(s[1..])
    else
      var n := WordLen(s);
      [s[..n]] + Words(s[n..])
  }

  /** Stripping a string that has no surrounding whitespace changes nothing. */
  lemma StripStripped(s: string)
    requires IsStripped(s)
    ensures Strip(s) == s
  {
  }

  /** `s.split(sep)` yields one more piece than there are separators. */
  lemma {:induction false} SplitCount(s: string, sep: char)
    ensures |Split(s, sep)| == Count(s, sep) + 1
    decreases |s|
  {
    if s != [] {
      SplitCount(s[1..], sep);
    }
  }

  /** Joining the pieces of `s.split(sep)` with `sep` gives `s` back. */
  lemma {:induction false} JoinSplit(s: string, sep: char)
    ensures Join(Split(s, sep), sep) == s
    decreases |s|
  {
    if s != [] {
      var rest := Split(s[1..], sep);
      JoinSplit(s[1..], sep);
      if s[0] == sep {
        assert Split(s, sep) == [""] + rest;
        assert ([""] + rest)[1..] == rest;
      } else {
        var r := Split(s, sep);
        assert r == [[s[0]] + rest[0]] + rest[1..];
        if |rest| == 1 {
          assert Join(rest, sep) == rest[0];
        } else {
          assert r[1..] == rest[1..];
          assert Join(rest, sep) == rest[0] + [sep] + Join(rest[1..], sep);
        }
      }
    }
  }

  /** A string without the separator is a single piece. */
  lemma {:induction false} SplitNoSep(s: string, sep: char)
    requires sep !in s
    ensures Split(s, sep) == [s]
    decreases |s|
  {
    if s != [] {
      SplitNoSep(s[1..], sep);
      assert [s[0]] + s[1..] == s;
    }
  }

  /** A separator-free prefix followed by the separator is split off as one piece. */
  lemma {:induction false} SplitAfter(a: string, sep: char, b: string)
    requires sep !in a
    ensures Split(a + [sep] + b, sep) == [a] + Split(b, sep)
    decreases |a|
  {
    if a == [] {
      assert a + [sep] + b == [sep] + b;
      assert ([sep] + b)[1..] == b;
    } else {
      var s := a + [sep] + b;
      assert s[1..] == a[1..] + [sep] + b;
      SplitAfter(a[1..], sep, b);
      assert [a[0]] + a[1..] == a;
    }
  }

  /** `s.split(sep)` undoes `sep.join(items)` for a non-empty list of separator-free items. */
  lemma {:induction false} SplitJoin(items: seq<string>, sep: char)
    requires |items| >= 1
    requires forall k :: 0 <= k < |items| ==> sep !in items[k]
    ensures Split(Join(items, sep), sep) == items
    decreases |items|
  {
    if |items| == 1 {
      SplitNoSep(items[0], sep);
    } else {
      SplitJoin(items[1..], sep);
      SplitAfter(items[0], sep, Join(items[1..], sep));
      assert [items[0]] + items[1..] == items;
    }
  }

  /** `sep.join` of non-empty, separator-free items neither starts nor ends with
      `sep` and never holds two separators in a row. */
  lemma {:induction false} JoinSeparatorsIsolated(items: seq<string>, sep: char)
    requires forall k :: 0 <= k < |items| ==> items[k] != [] && sep !in items[k]
    ensures var r := Join(items, sep);
      (r != [] ==> r[0] != sep && r[|r| - 1] != sep)
      && forall i :: 0 <= i < |r| - 1 ==> !(r[i] == sep && r[i + 1] == sep)
    decreases |items|
  {
    if |items| >= 2 {
      JoinSeparatorsIsolated(items[1..], sep);
      var a, t := items[0], Join(items[1..], sep);
      var r := a + [sep] + t;
      assert Join(items, sep) == r;
      assert items[1] != [] && sep !in items[1];
      assert t != [] && t[0] != sep by {
        assert |items[1..]| >= 1;
        if |items[1..]| == 1 {
          assert t == items[1];
        } else {
          assert t == items[1] + [sep] + Join(items[2..], sep);
        }
      }
      forall i | 0 <= i < |r| - 1
        ensures !(r[i] == sep && r[i + 1] == sep)
      {
        if i < |a| - 1 {
          assert r[i] == a[i];
        } else if i == |a| - 1 {
          assert r[i] == a[i];
        } else if i == |a| {
          assert r[i + 1] == t[0];
        } else {
          assert r[i] == t[i - |a| - 1] && r[i + 1] == t[i - |a|];
        }
      }
    }
  }

  /** The first run of a string that starts with a whitespace-free `w` followed by
      whitespace or nothing is exactly `w`. */
  lemma {:induction false} WordLenPrefix(w: string, t: string)
    requires forall i :: 0 <= i < |w| ==> !IsSpace(w[i])
    requires t == [] || IsSpace(t[0])
    ensures WordLen(w + t) == |w|
    decreases |w|
  {
    if w != [] {
      assert (w + t)[1..] == w[1..] + t;
      WordLenPrefix(w[1..], t);
    } else {
      assert w + t == t;
    }
  }

  /** `" ".join(words).split()` gives the words back when they are non-empty and
      contain no whitespace. */
  lemma {:induction false} WordsJoin(words: seq<string>)
    requires forall k :: 0 <= k < |words| ==> words[k] != [] && forall i :: 0 <= i < |words[k]| ==> !IsSpace(words[k][i])
    ensures Words(Join(words, ' ')) == words
    decreases |words|
  {
    if |words| == 1 {
      var w := words[0];
      WordLenPrefix(w, []);
      assert w + [] == w;
      assert w[|w|..] == [];
    } else if |words| >= 2 {
      var w, t := words[0], Join(words[1..], ' ');
      var s := w + [' '] + t;
      assert Join(words, ' ') == s;
      WordLenPrefix(w, [' '] + t);
      assert s == w + ([' '] + t);
      assert s[..|w|] == w;
      assert s[|w|..] == [' '] + t;
      assert ([' '] + t)[1..] == t;
      WordsJoin(words[1..]);
      assert [w] + words[1..] == words;
    }
  }

  /** Each word of `s.split()` is made of characters of `s`. */
  lemma {:induction false} WordsChars(s: string)
    ensures forall k, i :: 0 <= k < |Words(s)| && 0 <= i < |Words(s)[k]| ==> Words(s)[k][i] in s
    decreases |s|
  {
    if s != [] {
      if IsSpace(s[0]) {
        WordsChars(s[1..]);
      } else {
        var n := WordLen(s);
        WordsChars(s[n..]);
        var r := Words(s);
        assert r == [s[..n]] + Words(s[n..]);
        forall k, i | 0 <= k < |r| && 0 <= i < |r[k]|
          ensures r[k][i] in s
        {
          if k == 0 {
            assert r[k][i] == s[i];
          } else {
            assert r[k] == Words(s[n..])[k - 1];
            assert r[k][i] in s[n..];
          }
        }
      }
    }
  }
}

=== FILE: wrappers.dfy ===
/** Optional values: Python's `None` and a present value. */
module Wrappers {

  datatype Option<+T> = None | Some(value: T)
}
